=== FILE: README.md ===
# Payout processing and payout request validation, in Dafny

This project models the core of a payout service (a Django application
that issues bank, card and crypto payouts) and proves properties of the model:

- **The payout-processing worker.** One invocation of
  `PayoutProcessingService.process` on a payout id is a pure function:
  `Processing.Process(store, id, env)`. The record store is a
  `map<PayoutId, Payout>`. `env` holds three things:
  - the clock, as an integer `now` in microseconds;
  - an optional injected fault, which names the operation that raises an
    unexpected exception (the fetch, the stuck-job reset write, the
    `processing` write, one of the five simulated stages, or the
    `completed` write) and gives its message;
  - a flag saying that the failure-recording transaction raises as well.

  The result has three parts: the store afterwards, the outcome (a returned
  value, which is a result dictionary or `None`, or a raised exception),
  and the log of statuses written, in order. The source uses two exceptions
  as control flow, `StopProcessing` and `ProcessingInProgress`. They become
  constructors of a datatype, as do the not-found exceptions and the
  unexpected ones.
- **The request validators.** These are:
  - the Luhn check-digit test (ISO/IEC 7812-1, Annex B) and the field
    constraints of the payouts card schema;
  - the decimal constraints of the payouts amount field;
  - the recipient shapes of the payment application (bank account, card,
    crypto wallet), and the dispatch on their `type` field;
  - the per-currency amount limits;
  - the base payout body, and the currency and status enumerations.

Modules follow the source files:

- `Processing` and `ProcessingProperties` cover the processing service.
- `Luhn`, `Expiry`, `DecimalAmount` and `PayoutsSchemas` cover the payouts
  schemas.
- `PaymentSchemas`, `PaymentValidators` and `Enums` cover the payment
  application's schemas and validators.
- `IntendedProcessing` holds the two discrepancies described under Findings, and the corrected service.
- `Wrappers`, `Chars` and `Json` are helper modules.

## Model

| member | source | states |
|---|---|---|
| Enums.ParseCurrency | backend/api_app_payment/schemas.py:8-12 | A currency code parses exactly when it is one of RUB, USD, EUR and KZT. The parsed member's code is the input. |
| Enums.CurrencyRoundTrip | backend/api_app_payment/schemas.py:8-12 | Every currency member parses back from its own code. |
| Enums.ParseStatus | backend/api_app_payment/schemas.py:15-20 | A status parses exactly when it is one of pending, processing, completed, failed and cancelled. The parsed member's spelling is the input. |
| Enums.StatusRoundTrip | backend/api_app_payment/schemas.py:15-20 | Every status member parses back from its own spelling. |
| Processing.Save | backend/api_payouts/services/payout_task_proccessing_service.py:74-76 | A save with `update_fields=['status', 'updated_at']` changes only that record's status and `updated_at`, which becomes `now`. It appends the status to the write log and keeps the working copy equal to the stored record. |
| Processing.Setup | backend/api_payouts/services/payout_task_proccessing_service.py:40-43 | Without a fetch fault, the fetch succeeds exactly when the id is in the store, and it returns the stored record. A missing id then raises the HTTP not-found exception. A fetch fault raises that unexpected exception. |
| Processing.Validate | backend/api_payouts/services/payout_task_proccessing_service.py:52-60 | `completed` stops the pipeline with a stop exception that has no result, and no write. Every status other than `completed` and `processing` goes on unchanged. Any record that goes on is not `completed`, and only status and `updated_at` may have changed. |
| Processing.CheckStuckProcessing | backend/api_payouts/services/payout_task_proccessing_service.py:69-78 | A fresh record raises the in-progress exception with no write. A stale one is written `pending` (exactly one write added) and goes on, unless the reset write raises, in which case that exception stops the pipeline with no write. |
| Processing.SetProcessing | backend/api_payouts/services/payout_task_proccessing_service.py:80-84 | The pipeline stops exactly when the `processing` write raises, and then with that exception and no write. Otherwise the record is written `processing`, one write added. |
| Processing.SimulateProcessing | backend/api_payouts/services/payout_task_proccessing_service.py:94-118 | The simulated stages never write. They stop the pipeline exactly when a fault is injected into one of the five stages, with that exception. |
| Processing.Complete | backend/api_payouts/services/payout_task_proccessing_service.py:120-125 | The pipeline stops exactly when the `completed` write raises, and then with that exception and no write. Otherwise the record is written `completed`, one write added. |
| Processing.Pipeline | backend/api_payouts/services/payout_task_proccessing_service.py:29-32 | A `completed` record stops with a stop exception that has no result, and a fresh `processing` record with the in-progress exception, both without a write. A run that reaches the end has written `pending` (only for a stale `processing` record), then `processing`, then `completed`, and leaves the record `completed` with `updated_at = now` and nothing else changed. Only status and `updated_at` may change, and an empty write log means an unchanged store. |
| Processing.AppendError | backend/api_payouts/services/payout_task_proccessing_service.py:175-178 | A non-empty description is kept as a prefix, followed by a newline, `Ошибка: ` and the message. A missing or empty description becomes `Ошибка: ` and the message. |
| Processing.MarkAsFailed | backend/api_payouts/services/payout_task_proccessing_service.py:169-181 | When the record exists and the write succeeds, it becomes `failed`, the description gets the message appended and `updated_at` becomes `now`. Nothing else changes. A missing record or a raising write leaves store and log untouched. |
| Processing.Catch | backend/api_payouts/services/payout_task_proccessing_service.py:35-38 | A does-not-exist exception returns the not-found dictionary with no write. Every other exception goes to the generic handler, so the unexpected and HTTP not-found exceptions are re-raised. |
| Processing.HandleError | backend/api_payouts/services/payout_task_proccessing_service.py:154-167 | A stop exception returns its `result` attribute. The in-progress exception, which has no `result`, is re-raised without a write. Any other exception is first recorded by the failure recorder and then re-raised. |
| Processing.Process | backend/api_payouts/services/payout_task_proccessing_service.py:22-38 | Only the processed record may change, and only its status, description and `updated_at`. No write means an unchanged store. A stop exception or the does-not-exist exception never escapes. The only dictionary ever returned is the success result. |
| ProcessingProperties.OutcomeClassification | backend/api_payouts/services/payout_task_proccessing_service.py:22-78 | Each outcome is characterised by the input alone. `None` comes back exactly for a completed payout with a successful fetch. The in-progress exception escapes exactly for a fresh `processing` record with a successful fetch. The HTTP not-found exception escapes exactly for a missing id with a successful fetch. The injected exception escapes exactly when its operation is reached. Success comes back otherwise. |
| ProcessingProperties.FaultedRunRaises | backend/api_payouts/services/payout_task_proccessing_service.py:165-167 | A fault on the path taken by an existing record ends in that same exception being raised. |
| ProcessingProperties.CleanRunSucceeds | backend/api_payouts/services/payout_task_proccessing_service.py:27-33 | A record that passes validation and meets no fault returns the success result stamped `now`. |
| ProcessingProperties.CompletedIsNoOp | backend/api_payouts/services/payout_task_proccessing_service.py:54-57 | A completed payout gets no write, the store is unchanged and `None` comes back. |
| ProcessingProperties.CompletedIsNoOpOnEveryRepeat | backend/api_payouts/services/payout_task_proccessing_service.py:158-162 | This holds for any number of redeliveries: the store stays the same and every outcome is `None`. |
| ProcessingProperties.FreshProcessingRaisesInProgress | backend/api_payouts/services/payout_task_proccessing_service.py:71-78 | A `processing` record with `updated_at >= now - 5 min` raises the in-progress exception out of `process`, with no write. |
| ProcessingProperties.StalenessBoundary | backend/api_payouts/services/payout_task_proccessing_service.py:71 | The comparison is strict. Exactly five minutes old is fresh, and one microsecond older is stale. The threshold is 300 seconds. |
| ProcessingProperties.StaleProcessingIsRecovered | backend/api_payouts/services/payout_task_proccessing_service.py:71-84 | A stale `processing` record is written `pending`, then `processing`, then `completed`. It ends `completed` with `updated_at = now` and the success result. |
| ProcessingProperties.UnguardedStatusesComplete | backend/api_payouts/services/payout_task_proccessing_service.py:54-60 | `pending`, `failed` and `cancelled` are all written `processing` and then `completed` by a fault-free run. |
| ProcessingProperties.SuccessWritesOnlyStatusAndClock | backend/api_payouts/services/payout_task_proccessing_service.py:135-143 | Whenever a dictionary comes back, it is `success=True`, `status='completed'`, `completed_at=now`. The record differs from the original only in status and `updated_at`. Amount, currency, recipient details and description are unchanged. |
| ProcessingProperties.UnexpectedErrorIsRecorded | backend/api_payouts/services/payout_task_proccessing_service.py:165-179 | After an unexpected exception on an existing record, the record is the original with status `failed`, the message appended to the description and `updated_at = now`. The last write is `failed`, and the same exception is raised. |
| ProcessingProperties.FailureNoteAppends | backend/api_payouts/services/payout_task_proccessing_service.py:175-178 | A non-empty description `d` becomes `d + "\nОшибка: " + msg`. An empty or missing one becomes `"Ошибка: " + msg`. |
| ProcessingProperties.RecordingFailureIsSwallowed | backend/api_payouts/services/payout_task_proccessing_service.py:180-181 | When the failure-recording write raises too, the original exception still escapes. No `failed` is written and the description is untouched. |
| ProcessingProperties.MissingIdRaisesNotFound | backend/api_payouts/services/payout_task_proccessing_service.py:35-43 | A missing id leaves the store unchanged and raises the HTTP not-found exception. The recorder's own lookup fails and is swallowed. |
| ProcessingProperties.DeliveredTwice | backend/api_payouts/services/payout_task_proccessing_service.py:22-33 | A `pending` payout created at `t0` and processed at `now > t0` ends `completed` with `updated_at = now`. A second delivery returns `None` and writes nothing. |
| Luhn.CollectDigits | backend/api_payouts/schemas.py:38 | Only decimal digits are collected, each as its value below 10, and never more than the characters given. An all-digit string gives its digits one for one. |
| Luhn.CollectDigitsAppend | backend/api_payouts/schemas.py:38 | Collecting digits distributes over concatenation. |
| Luhn.CollectDigitsOfOne | backend/api_payouts/schemas.py:38 | A non-digit character contributes nothing, and a digit contributes its value. |
| Luhn.DoubleReduced | backend/api_payouts/schemas.py:50-52 | A doubled digit reduced by 9 when above 9 lies in 0..9. It equals the sum of the decimal digits of the doubled value. |
| Luhn.DoubleReducedInjective | backend/api_payouts/schemas.py:50-52 | Distinct digits keep distinct contributions after doubling and reducing. |
| Luhn.Reverse | backend/api_payouts/schemas.py:45 | The reversal keeps the length and puts element `i` at position `n-1-i`. |
| Luhn.ValidateLuhn | backend/api_payouts/schemas.py:34-60 | Accepts exactly when 13..19 digits were collected and they pass the Luhn test read from the right. It refuses with the digit-count error exactly when the count is outside 13..19. On acceptance it returns its input unchanged. |
| Luhn.SumFromRightByPartialSums | backend/api_payouts/schemas.py:47-55 | The right-to-left Luhn sum equals the left-to-right accumulation in which a digit is doubled when an odd number of digits follows it. |
| Luhn.SumFromRightUpdate | backend/api_payouts/schemas.py:47-55 | Changing one digit changes the sum by exactly the change in that digit's contribution. |
| Luhn.SingleDigitErrorDetected | backend/api_payouts/schemas.py:43-58 | Any single-digit substitution turns a passing digit string into a failing one. |
| Expiry.ExpiryPatternMeansMonth | backend/api_payouts/schemas.py:27-31 | The expiry pattern accepts exactly the `MM/YY` strings of ASCII digits whose month lies in 1..12. |
| Expiry.FormatExpiry | backend/api_app_payment/schemas.py:34 | Every month 1..12 and two-digit year, written as `MM/YY`, matches the pattern and reads back as the same month and year. |
| DecimalAmount.Normalize | backend/api_payouts/schemas.py:77 | Normalizing keeps sign and zero-ness and leaves a non-zero coefficient without a trailing zero. |
| DecimalAmount.CentsOfNormalize | backend/api_payouts/schemas.py:77 | Normalizing does not change the value counted in hundredths, nor whether it is a whole number of hundredths. |
| DecimalAmount.ValueOfNormalize | backend/api_payouts/schemas.py:77 | Normalizing does not change the exact (real) value the decimal denotes. |
| DecimalAmount.CentsIsValue | backend/api_payouts/schemas.py:77 | Whenever a decimal is a whole number of hundredths, that number divided by 100 is its exact real value. |
| DecimalAmount.NumDigitsBound | backend/api_payouts/schemas.py:77 | A number has at most `k` digits exactly when it is below `10^k`. |
| DecimalAmount.AmountAcceptedIffWholeCents | backend/api_payouts/schemas.py:77 | The amount constraints are: greater than 0, at most 2 places, at most 12 digits, at most 10 before the point. They accept exactly the non-negative decimals that are a whole number of hundredths in `1 .. 10^12 - 1`. |
| PayoutsSchemas.ValidateCardNumber | backend/api_payouts/schemas.py:10-17 | The card number is accepted exactly when it has 13..19 characters, all ASCII digits, that pass the Luhn test. It is returned unchanged. |
| PayoutsSchemas.ValidateCard | backend/api_payouts/schemas.py:9-31 | The card recipient is accepted exactly when the number passes, the holder has 4..100 characters and the expiry matches `MM/YY` with month 01..12. |
| PayoutsSchemas.DocumentedExamplesAccepted | backend/api_payouts/schemas.py:14 | The documented numbers 5555555555554444, 6011000990139424 and 5892830000000000, written as digit strings, pass the card number field. The source documents them as integers, which a string field would refuse. |
| PayoutsSchemas.AcceptedByPartialSums | backend/api_payouts/schemas.py:34-60 | A 13..19-digit string whose left-to-right Luhn partial sums end in a multiple of ten passes the field. |
| PayoutsSchemas.ValidateAmount | backend/api_payouts/schemas.py:77 | The amount is accepted exactly when it is non-negative and a whole number of hundredths between 1 and `10^12 - 1`. |
| PaymentSchemas.RequiredString | backend/api_app_payment/schemas.py:25-26 | A required string field is accepted exactly when present, a string, and within its length bounds. The error names the field. |
| PaymentSchemas.OptionalString | backend/api_app_payment/schemas.py:27-28 | An optional field is accepted when absent or null (read as `None`), or when it is a string of exactly the given length. |
| PaymentSchemas.ParseBankAccount | backend/api_app_payment/schemas.py:24-28 | Accepted exactly when `account_number` has 10..34 characters and `bank_name` 2..100, `bik` is absent or has 9, and `correspondent_account` is absent or has 20. The parsed account holds exactly the given strings; an absent or null optional field becomes `None`. |
| PaymentSchemas.BankAccountRoundTrip | backend/api_app_payment/schemas.py:24-28 | A valid bank account written out as fields reads back unchanged. An invalid one is refused. |
| PaymentSchemas.ParseCard | backend/api_app_payment/schemas.py:31-34 | Accepted exactly when `card_number` has 16..19 characters (no Luhn test), `card_holder` has 2..100, and `expiry_date` matches `MM/YY` with month 01..12. |
| PaymentSchemas.CardRoundTrip | backend/api_app_payment/schemas.py:31-34 | A card written out reads back unchanged exactly when its three fields meet those bounds. |
| PaymentSchemas.ParseCryptoWallet | backend/api_app_payment/schemas.py:37-40 | Accepted exactly when `wallet_address` has 26..64 characters, `network` 2..20 and `currency` 2..10. |
| PaymentSchemas.CryptoWalletRoundTrip | backend/api_app_payment/schemas.py:37-40 | A wallet written out reads back unchanged exactly when its fields meet those bounds. |
| PaymentSchemas.ValidatePayoutBase | backend/api_app_payment/schemas.py:44-48 | Accepted exactly when the amount is above 0, the currency is absent (read as RUB) or one of the four codes, the recipient details are an object, and the description is absent or at most 500 characters. The parsed body keeps the amount, the recipient details and the description as given. |
| PaymentSchemas.PayoutBaseRoundTrip | backend/api_app_payment/schemas.py:44-48 | A payout body written back with its currency code validates again exactly when its amount is above 0 and its description within 500 characters, and then it comes back unchanged. |
| PaymentValidators.ValidateRecipientDetails | backend/api_app_payment/validators.py:8-25 | A missing or falsy `type` is refused, and so is any value other than `bank_account`, `card` or `crypto`. Otherwise the details are accepted exactly when the schema the type selects accepts them. The variant returned matches the type, and it holds exactly what the selected schema parsed. |
| PaymentValidators.TaggedBankAccountAccepted | backend/api_app_payment/validators.py:17-18 | A valid bank account tagged `bank_account` is accepted and read back unchanged. |
| PaymentValidators.ValidateAmountByCurrency | backend/api_app_payment/validators.py:30-47 | An unknown currency is refused first, then an amount below the minimum, then one above the maximum. The amount is accepted exactly when `min <= amount <= max`. |
| PaymentValidators.LimitsCoverCurrencies | backend/api_app_payment/validators.py:33-38 | The table has an entry for every currency member and no other key. The entries are RUB 10..1 000 000, USD and EUR 1..10 000, and KZT 100..5 000 000, and min < max for each. |
| PaymentValidators.AmountAcceptedIffWithinLimits | backend/api_app_payment/validators.py:40-47 | The amount check accepts exactly a known currency code together with an amount within that currency's inclusive limits. |
| PaymentValidators.LimitsAreInclusive | backend/api_app_payment/validators.py:44-47 | For every currency, the minimum and the maximum themselves are accepted. |
| IntendedProcessing.AlreadyCompletedYieldsNone | backend/api_payouts/services/payout_task_proccessing_service.py:54-57 | As written, a completed payout yields `None`, not the already-completed dictionary the service had prepared. |
| IntendedProcessing.MissingIdNeverYieldsNotFoundResult | backend/api_payouts/services/payout_task_proccessing_service.py:35-36 | As written, any id missing from the store, with a successful fetch, raises the HTTP not-found exception; for instance id `p1` on an empty store. No input ever returns the not-found dictionary. |
| IntendedProcessing.ProcessIntended | backend/api_payouts/services/payout_task_proccessing_service.py:145-152 | Corrected: a completed payout reports already-completed without a write, and a missing id returns the not-found dictionary without a write. Every other input behaves as the service as written. |
| IntendedProcessing.IntendedCompletedIsReported | backend/api_payouts/services/payout_task_proccessing_service.py:184-189 | Corrected: a completed payout is reported as already completed, and redelivering it repeats the same run. |

## Left out

- HTTP routers, CRUD services, the exception-to-HTTP mapping, the queue enqueue on commit, the worker launcher and the ORM model declarations: they are plumbing around the core. The model's store stands in for the ORM table.
- Logging and task progress reporting (`update_state`), and the stage durations: they are observability only, are never read back and never sleep.
- Concurrency: one sequential invocation is modelled, with each write atomic. Concurrent duplicate delivery and deletion of the record during processing are not modelled, so the working copy always equals the stored record.
- Processing.Process: reads one clock value per invocation; the source reads the clock separately for the staleness test and for each save. A stage fault stands for an exception from the only calls in a simulated stage, its logging and its progress report; faults in the logging outside the stages, and a fault after a write has committed, are not injected.
- Payout ids are assumed to be well-formed. If the primary key is a UUID field (as in backend/api_app_payment/models.py:20), a malformed id makes the lookup raise a validation error, not the HTTP not-found exception. The model can express that only as a fetch fault. backend/api_payouts/models.py is not part of this model.
- Processing.ErrorText: the text of an exception other than an injected one is a fixed string, not Django's formatting.
- Luhn.CollectDigits: treats only ASCII `0`-`9` as digits. Python's `isdigit` also admits other Unicode digits, but the field pattern that runs first only admits ASCII.
- PayoutsSchemas.ValidateCard: does not check the holder's letters-and-hyphen pattern, only its length. The pattern is low-value Unicode-range matching.
- DecimalAmount.AmountAcceptedIffWholeCents: ignores the 28-digit rounding of the decimal context during normalization, and the special values NaN and Infinity.
- DecimalAmount.Normalize: does not round to the context's 28 significant digits before stripping trailing zeros, as `Decimal.normalize` does; the model keeps every digit.
- DecimalAmount.ValueOfNormalize: states that the model's normalization keeps the exact value. The real normalization rounds to 28 significant digits first, so it can change a value with more digits than that.
- DecimalAmount.CentsOfNormalize: holds for the model's normalization, which does not round to 28 significant digits; the real one can turn a value like `1.00000000000000000000000000001` into whole hundredths.
- PayoutsSchemas.ValidateAmount: counts places and digits without first rounding to 28 significant digits. It refuses an amount with more than 28 significant digits that the field accepts after rounding, for example `1.00000000000000000000000000001`, which rounds to `1`.
- PaymentValidators.ValidateAmountByCurrency: amounts are exact reals. Floating-point rounding and NaN are not modelled.
- PaymentSchemas.ValidatePayoutBase: takes an already-typed amount, currency and description. Decoding of the request body (lax number-from-string coercion and similar) is not modelled.
- Validator error messages and the re-wrapping of errors at validators.py:26-28: the model accepts or refuses and names the refused field.
- The payouts application's create, update and response schemas as wholes, and its `Currency` and `Status` types: backend/api_payouts/models.py is not part of this model.
- The `$` anchor of the patterns is read as end of text (the Rust pattern engine of the schema library), without Python's allowance for a trailing newline.

## Behaviour to note

- The failure note is prefixed `Ошибка: `.
- An already-completed payout makes `process` return `None`.
- A missing id raises the HTTP not-found exception out of `process`.
- The idempotency check guards only `completed` and `processing`, so a fault-free run drives `failed` and `cancelled` payouts to `completed`.
- The stuck-job reset and the later status writes are unconditional saves.

## Findings

| source | as written | input that shows it | evidently intended | confidence | as-written member | corrected member |
|---|---|---|---|---|---|---|
| backend/api_payouts/services/payout_task_proccessing_service.py:56-57 | `self.result` is set to the already-completed dictionary, but `StopProcessing()` is raised without it, so the handler returns `None` | a store holding one payout `p1` with status `completed`, processed at `now = 2` without faults | return `{'already_completed': True}` | medium, not executed | IntendedProcessing.AlreadyCompletedYieldsNone | IntendedProcessing.ProcessIntended |
| backend/api_payouts/services/payout_task_proccessing_service.py:35-36 | the handler for a missing record catches `Payout.DoesNotExist`, but the fetch raises `Http404`, so the not-found result is never returned and `Http404` escapes | an empty store and id `p1`, without faults | return the not-found dictionary | high, not executed | IntendedProcessing.MissingIdNeverYieldsNotFoundResult | IntendedProcessing.ProcessIntended |

=== FILE: chars.dfy ===
/** ASCII decimal digits, as matched by the character class `[0-9]`. */
module Chars {

  predicate IsDigit(c: char) {
    '0' <= c <= '9'
  }

  predicate AllDigits(s: string) {
    forall i :: 0 <= i < |s| ==> IsDigit(s[i])
  }

  function DigitValue(c: char): (d: nat)
    requires IsDigit(c)
    ensures d < 10
    ensures c == (d + '0' as int) as char
  {
    (c as int) - ('0' as int)
  }

  function DigitChar(d: nat): (c: char)
    requires d < 10
    ensures IsDigit(c) && DigitValue(c) == d
  {
    (d + '0' as int) as char
  }
}

=== FILE: decimal_amount.dfy ===
/**
  The payout amount of the payouts schema: a decimal that must be greater
  than zero, with at most 2 decimal places and at most 12 digits. The
  digits are counted the way the schema library counts them: on the
  normalized value (trailing zeros of the coefficient dropped), and at most
  `MaxDigits - DecimalPlaces` (10) digits may stand before the point.
*/
module DecimalAmount {
  import opened Wrappers

  /** A finite decimal as `Decimal.as_tuple()` gives it: value = (-1)^negative * coefficient * 10^exponent. */
  datatype Decimal = Decimal(negative: bool, coefficient: nat, exponent: int)

  const MaxDigits: nat := 12
  const DecimalPlaces: nat := 2

  function Pow10(n: nat): (r: nat)
    ensures r >= 1
  {
    if n == 0 then 1 else 10 * Pow10(n - 1)
  }

  /** `c` with `n` zeros written after it. */
  function ShiftLeft(c: nat, n: nat): nat {
    if n == 0 then c else 10 * ShiftLeft(c, n - 1)
  }

  /** `c` with its last `n` digits removed, when they are all zeros. */
  function ShiftRight(c: nat, n: nat): Option<nat> {
    if n == 0 then Some(c)
    else if c % 10 == 0 then ShiftRight(c / 10, n - 1)
    else None
  }

  /** Ten to the power `e` as a real; a negative `e` gives a fraction. */
  function Scale(e: int): (r: real)
    ensures r > 0.0
  {
    if e >= 0 then Pow10(e) as real else 1.0 / (Pow10(-e) as real)
  }

  /** The exact value a decimal denotes. */
  function Value(d: Decimal): real {
    var magnitude := (d.coefficient as real) * Scale(d.exponent);
    if d.negative then -magnitude else magnitude
  }

  /** The number of digits in the decimal writing of `c`; zero is written with one digit. */
  function NumDigits(c: nat): (r: nat)
    ensures r >= 1
  {
    if c < 10 then 1 else 1 + NumDigits(c / 10)
  }

  /** `Decimal.normalize()`: trailing zeros of the coefficient move into the exponent; zero gets exponent 0. */
  function Normalize(d: Decimal): (n: Decimal)
    ensures n.negative == d.negative
    ensures n.coefficient == 0 <==> d.coefficient == 0
    ensures n.coefficient != 0 ==> n.coefficient % 10 != 0
    decreases d.coefficient
  {
    if d.coefficient == 0 then Decimal(d.negative, 0, 0)
    else if d.coefficient % 10 == 0 then Normalize(Decimal(d.negative, d.coefficient / 10, d.exponent + 1))
    else d
  }

  /** The total digit count and the decimal-place count of the normalized value. */
  function DigitsAndPlaces(d: Decimal): (nat, nat) {
    var n := Normalize(d);
    if n.exponent >= 0 then (NumDigits(n.coefficient) + n.exponent, 0)
    else
      var places := -n.exponent;
      (if NumDigits(n.coefficient) > places then NumDigits(n.coefficient) else places, places)
  }

  /** The amount field's constraints: greater than zero, at most 12 digits, at most 2 places, at most 10 whole digits. */
  predicate AmountAccepted(d: Decimal) {
    var (digits, places) := DigitsAndPlaces(d);
    && !d.negative && d.coefficient > 0
    && digits <= MaxDigits
    && places <= DecimalPlaces
    && digits - places <= MaxDigits - DecimalPlaces
  }

  /** The value in hundredths, when it is a whole number of hundredths. */
  function Cents(d: Decimal): Option<int> {
    var magnitude :=
      if d.exponent >= -2 then Some(ShiftLeft(d.coefficient, d.exponent + 2))
      else ShiftRight(d.coefficient, -d.exponent - 2);
    match magnitude
    case None => None
    case Some(m) =>
      var v: int := if d.negative then -(m as int) else m;
      Some(v)
  }

  lemma {:induction false} ShiftLeftTen(c: nat, n: nat)
    ensures ShiftLeft(10 * c, n) == ShiftLeft(c, n + 1)
  {
    if n > 0 {
      ShiftLeftTen(c, n - 1);
    }
  }

  lemma {:induction false} ShiftLeftPositive(c: nat, n: nat)
    ensures ShiftLeft(c, n) > 0 <==> c > 0
  {
    if n > 0 {
      ShiftLeftPositive(c, n - 1);
    }
  }

  /** Normalizing does not change the value counted in hundredths, nor whether it is a whole number of them. */
  lemma {:induction false} CentsOfNormalize(d: Decimal)
    ensures Cents(Normalize(d)) == Cents(d)
    decreases d.coefficient
  {
    if d.coefficient == 0 {
      ShiftLeftPositive(0, 2);
      if d.exponent >= -2 {
        ShiftLeftPositive(0, d.exponent + 2);
      } else {
        ShiftRightZero(-d.exponent - 2);
      }
    } else if d.coefficient % 10 == 0 {
      var d' := Decimal(d.negative, d.coefficient / 10, d.exponent + 1);
      CentsOfNormalize(d');
      assert d.coefficient == 10 * d'.coefficient;
      if d.exponent >= -2 {
        ShiftLeftTen(d'.coefficient, d.exponent + 2);
      } else if d.exponent == -3 {
        assert ShiftRight(d.coefficient, 1) == Some(d'.coefficient);
      } else {
        assert ShiftRight(d.coefficient, -d.exponent - 2) == ShiftRight(d'.coefficient, -d'.exponent - 2);
      }
    }
  }

  lemma ScaleStep(e: int)
    ensures Scale(e + 1) == 10.0 * Scale(e)
  {
    if e < -1 {
      var p := Pow10(-e - 1) as real;
      assert Pow10(-e) as real == 10.0 * p;
      calc {
        10.0 * Scale(e);
        10.0 * (1.0 / (10.0 * p));
        1.0 / p;
      }
    }
  }

  /** Normalizing keeps the exact value: only trailing zeros move into the exponent. */
  lemma {:induction false} ValueOfNormalize(d: Decimal)
    ensures Value(Normalize(d)) == Value(d)
    decreases d.coefficient
  {
    if d.coefficient == 0 {
      ValueOfZero(d);
    } else if d.coefficient % 10 == 0 {
      var d' := Decimal(d.negative, d.coefficient / 10, d.exponent + 1);
      ValueOfNormalize(d');
      ValueDropTrailingZero(d);
    }
  }

  lemma ValueOfZero(d: Decimal)
    requires d.coefficient == 0
    ensures Value(d) == 0.0 && Value(Normalize(d)) == 0.0
  {
    assert (d.coefficient as real) * Scale(d.exponent) == 0.0;
  }

  /** Dropping one trailing zero of the coefficient and raising the exponent by one keeps the value. */
  lemma ValueDropTrailingZero(d: Decimal)
    requires d.coefficient % 10 == 0
    ensures Value(Decimal(d.negative, d.coefficient / 10, d.exponent + 1)) == Value(d)
  {
    var c := (d.coefficient / 10) as real;
    var sc := Scale(d.exponent);
    ScaleStep(d.exponent);
    assert d.coefficient as real == 10.0 * c;
    MoveFactor(c, sc);
  }

  lemma MoveFactor(a: real, b: real)
    ensures (10.0 * a) * b == a * (10.0 * b)
  {
  }

  lemma {:induction false} ShiftLeftIsProduct(c: nat, n: nat)
    ensures ShiftLeft(c, n) == c * Pow10(n)
  {
    if n > 0 {
      ShiftLeftIsProduct(c, n - 1);
    }
  }

  lemma {:induction false} ShiftRightIsQuotient(c: nat, n: nat)
    ensures ShiftRight(c, n).Some? ==> c == ShiftRight(c, n).value * Pow10(n)
  {
    if n > 0 && c % 10 == 0 {
      ShiftRightIsQuotient(c / 10, n - 1);
    }
  }

  /** Whenever `Cents` gives a number, that number is the exact value in hundredths. */
  lemma CentsIsValue(d: Decimal)
    ensures Cents(d).Some? ==> Value(d) == Cents(d).value as real / 100.0
  {
    if d.exponent >= -2 {
      var m := ShiftLeft(d.coefficient, d.exponent + 2);
      MagnitudeInHundredths(d, m);
      SignedHundredths(d, m);
    } else if ShiftRight(d.coefficient, -d.exponent - 2).Some? {
      var m := ShiftRight(d.coefficient, -d.exponent - 2).value;
      MagnitudeInHundredths(d, m);
      SignedHundredths(d, m);
    }
  }

  lemma SignedHundredths(d: Decimal, m: nat)
    requires (d.coefficient as real) * Scale(d.exponent) == m as real / 100.0
    ensures Value(d) == (if d.negative then -(m as int) else m as int) as real / 100.0
  {
  }

  /** The magnitude of a decimal that is a whole number `m` of hundredths is `m / 100`. */
  lemma MagnitudeInHundredths(d: Decimal, m: nat)
    requires d.exponent >= -2 ==> m == ShiftLeft(d.coefficient, d.exponent + 2)
    requires d.exponent < -2 ==> ShiftRight(d.coefficient, -d.exponent - 2) == Some(m)
    ensures (d.coefficient as real) * Scale(d.exponent) == m as real / 100.0
  {
    if d.exponent >= -2 {
      HundredthsOfShiftLeft(d.coefficient, d.exponent);
    } else {
      HundredthsOfShiftRight(d.coefficient, d.exponent, m);
    }
  }

  lemma HundredthsOfShiftLeft(c: nat, e: int)
    requires e >= -2
    ensures (c as real) * Scale(e) == ShiftLeft(c, e + 2) as real / 100.0
  {
    var k: nat := e + 2;
    ShiftLeftIsProduct(c, k);
    var p := Pow10(k);
    assert ShiftLeft(c, k) as real == (c as real) * (p as real);
    HundredthsScale(e);
    HundredthsOfProduct(c as real, Scale(e), (c as real) * (p as real));
  }

  /** Ten to the power `e + 2` is a hundred times ten to the power `e`. */
  lemma HundredthsScale(e: int)
    requires e >= -2
    ensures Pow10(e + 2) as real == 100.0 * Scale(e)
  {
    if e >= 0 {
      assert Pow10(e + 2) == 100 * Pow10(e);
    }
  }

  lemma HundredthsOfShiftRight(c: nat, e: int, m: nat)
    requires e < -2 && ShiftRight(c, -e - 2) == Some(m)
    ensures (c as real) * Scale(e) == m as real / 100.0
  {
    var k: nat := -e - 2;
    ShiftRightIsQuotient(c, k);
    var p := Pow10(k) as real;
    assert Pow10(k + 2) == 100 * Pow10(k);
    assert Scale(e) == 1.0 / (100.0 * p);
    assert c as real == (m as real) * p;
    HundredthsOfQuotient(m as real, p);
  }

  lemma HundredthsOfProduct(c: real, sc: real, m: real)
    requires m == c * (100.0 * sc)
    ensures c * sc == m / 100.0
  {
  }

  lemma HundredthsOfQuotient(m: real, p: real)
    requires p > 0.0
    ensures (m * p) * (1.0 / (100.0 * p)) == m / 100.0
  {
  }

  lemma {:induction false} ShiftRightZero(n: nat)
    ensures ShiftRight(0, n) == Some(0)
  {
    if n > 0 {
      ShiftRightZero(n - 1);
    }
  }

  /** A digit count of at most `k` means a value below `10^k`. */
  lemma {:induction false} NumDigitsBound(c: nat, k: nat)
    requires k >= 1
    ensures NumDigits(c) <= k <==> c < Pow10(k)
  {
    if k > 1 && c >= 10 {
      NumDigitsBound(c / 10, k - 1);
    }
  }

  lemma {:induction false} NumDigitsShiftLeft(c: nat, n: nat)
    requires c > 0
    ensures NumDigits(ShiftLeft(c, n)) == NumDigits(c) + n
  {
    if n > 0 {
      NumDigitsShiftLeft(c, n - 1);
      ShiftLeftPositive(c, n - 1);
      assert (10 * ShiftLeft(c, n - 1)) / 10 == ShiftLeft(c, n - 1);
    }
  }

  /** Removing digits from a number that does not end in zero never comes out exact. */
  lemma ShiftRightInexact(c: nat, n: nat)
    requires c % 10 != 0 && n >= 1
    ensures ShiftRight(c, n) == None
  {
  }

  /**
    The amount field accepts exactly the positive amounts that are a whole
    number of hundredths below `10^10`, i.e. whole hundredths in
    `1 .. 10^12 - 1`.
  */
  lemma AmountAcceptedIffWholeCents(d: Decimal)
    ensures AmountAccepted(d) <==> !d.negative && Cents(d).Some? && 0 < Cents(d).value < Pow10(MaxDigits)
  {
    var n := Normalize(d);
    CentsOfNormalize(d);
    if d.negative || d.coefficient == 0 {
      if n.exponent >= -2 {
        ShiftLeftPositive(n.coefficient, n.exponent + 2);
      } else {
        ShiftRightZero(-n.exponent - 2);
      }
    } else if n.exponent >= -2 {
      var cents := ShiftLeft(n.coefficient, n.exponent + 2);
      NumDigitsShiftLeft(n.coefficient, n.exponent + 2);
      NumDigitsBound(cents, MaxDigits);
      ShiftLeftPositive(n.coefficient, n.exponent + 2);
    } else {
      ShiftRightInexact(n.coefficient, -n.exponent - 2);
    }
  }
}

=== FILE: enums.dfy ===
/**
  The closed value sets of the payment application: the currencies a payout
  may be issued in and the statuses a payout moves through. Each member has
  the wire spelling the schemas accept.
*/
module Enums {
  import opened Wrappers

  datatype Currency = RUB | USD | EUR | KZT

  datatype Status = Pending | Processing | Completed | Failed | Cancelled

  function CurrencyCode(c: Currency): string {
    match c
    case RUB => "RUB"
    case USD => "USD"
    case EUR => "EUR"
    case KZT => "KZT"
  }

  /** Accepts exactly the four codes of the currency enumeration. */
  function ParseCurrency(s: string): (r: Option<Currency>)
    ensures r.Some? <==> s in {"RUB", "USD", "EUR", "KZT"}
    ensures r.Some? ==> CurrencyCode(r.value) == s
  {
    if s == "RUB" then Some(RUB)
    else if s == "USD" then Some(USD)
    else if s == "EUR" then Some(EUR)
    else if s == "KZT" then Some(KZT)
    else None
  }

  lemma CurrencyRoundTrip(c: Currency)
    ensures ParseCurrency(CurrencyCode(c)) == Some(c)
  {
  }

  function StatusCode(s: Status): string {
    match s
    case Pending => "pending"
    case Processing => "processing"
    case Completed => "completed"
    case Failed => "failed"
    case Cancelled => "cancelled"
  }

  /** Accepts exactly the five status spellings. */
  function ParseStatus(s: string): (r: Option<Status>)
    ensures r.Some? <==> s in {"pending", "processing", "completed", "failed", "cancelled"}
    ensures r.Some? ==> StatusCode(r.value) == s
  {
    if s == "pending" then Some(Pending)
    else if s == "processing" then Some(Processing)
    else if s == "completed" then Some(Completed)
    else if s == "failed" then Some(Failed)
    else if s == "cancelled" then Some(Cancelled)
    else None
  }

  lemma StatusRoundTrip(s: Status)
    ensures ParseStatus(StatusCode(s)) == Some(s)
  {
  }
}

=== FILE: expiry.dfy ===
/**
  The card expiry field shared by both card schemas: the pattern
  `^(0[1-9]|1[0-2])\/([0-9]{2})$`, i.e. a two-digit month 01..12, a slash
  and a two-digit year. `$` is end of text (the pattern engine used by the
  schemas does not allow a trailing newline).
*/
module Expiry {
  import opened Wrappers
  import opened Chars

  /** The expiry pattern, alternative by alternative. */
  predicate MatchesExpiryPattern(s: string) {
    && |s| == 5
    && ((s[0] == '0' && '1' <= s[1] <= '9') || (s[0] == '1' && '0' <= s[1] <= '2'))
    && s[2] == '/'
    && IsDigit(s[3]) && IsDigit(s[4])
  }

  /** Reads `MM/YY` as a month number and a year number, whatever their range. */
  function ReadMonthYear(s: string): Option<(nat, nat)> {
    if |s| == 5 && IsDigit(s[0]) && IsDigit(s[1]) && s[2] == '/' && IsDigit(s[3]) && IsDigit(s[4]) then
      Some((10 * DigitValue(s[0]) + DigitValue(s[1]), 10 * DigitValue(s[3]) + DigitValue(s[4])))
    else
      None
  }

  /** The pattern accepts exactly the `MM/YY` strings whose month lies in 1..12. */
  lemma ExpiryPatternMeansMonth(s: string)
    ensures MatchesExpiryPattern(s) <==> ReadMonthYear(s).Some? && 1 <= ReadMonthYear(s).value.0 <= 12
  {
  }

  /** Writes a month and a two-digit year as `MM/YY`. */
  function FormatExpiry(month: nat, year: nat): (s: string)
    requires 1 <= month <= 12 && year < 100
    ensures MatchesExpiryPattern(s)
    ensures ReadMonthYear(s) == Some((month, year))
  {
    [DigitChar(month / 10), DigitChar(month % 10), '/', DigitChar(year / 10), DigitChar(year % 10)]
  }
}

=== FILE: intended_processing.dfy ===
/**
  Two places where the processing service does not do what its own code
  sets up, each shown on a concrete input, and the corrected service with
  the intended behaviour proved.

  1. An already-completed payout: the service records
     `{'already_completed': True}` as its result but raises the stop
     exception without it, so the caller receives `None`.
  2. A missing payout: the service has a handler returning a not-found
     result for the ORM's does-not-exist exception, but the fetch raises the
     HTTP not-found exception instead, so that handler is never reached and
     the not-found exception escapes.
*/
module IntendedProcessing {
  import opened Wrappers
  import opened Enums
  import opened Json
  import opened Processing
  import opened ProcessingProperties

  const SamplePayout: Payout := Payout(100000, RUB, JObject(map[]), Completed, None, 0, 1)

  /** As written: a completed payout yields `None`, not the already-completed result. */
  lemma AlreadyCompletedYieldsNone()
    ensures Process(map["p1" := SamplePayout], "p1", Env(2, None, false)).outcome == Returned(None)
  {
  }

  /** As written: a missing id raises the not-found exception; no not-found result is ever returned. */
  lemma MissingIdNeverYieldsNotFoundResult(store: Store, id: PayoutId, env: Env)
    ensures Process(map[], "p1", Env(2, None, false)).outcome == Raised(Http404)
    ensures id !in store && FetchSucceeds(env) ==> Process(store, id, env).outcome == Raised(Http404)
    ensures Process(store, id, env).outcome != Returned(Some(NotFoundDict(false, id)))
  {
    if id !in store && FetchSucceeds(env) {
      MissingIdRaisesNotFound(store, id, env);
    }
  }

  /**
    The service as evidently intended: the stop exception carries the
    already-completed result, and the handler for a missing record catches
    the exception the fetch actually raises.
  */
  function ProcessIntended(store: Store, id: PayoutId, env: Env): (r: Run)
    ensures FetchSucceeds(env) && id in store && store[id].status == Completed ==>
              r == Run(store, Returned(Some(AlreadyCompletedDict(true))), [])
    ensures FetchSucceeds(env) && id !in store ==>
              r == Run(store, Returned(Some(NotFoundDict(false, id))), [])
    ensures !(FetchSucceeds(env) && (id !in store || store[id].status == Completed)) ==>
              r == Process(store, id, env)
  {
    match Setup(store, id, env)
    case Failure(e) =>
      if e == Http404 then Run(store, Returned(Some(NotFoundDict(false, id))), [])
      else HandleError(store, [], id, e, env)
    case Success(p) =>
      match Pipeline(Work(store, id, p, []), env)
      case Next(w) => Run(w.store, Returned(Some(SuccessResult(w))), w.writes)
      case Stop(s, ws, e) =>
        if e.StopProcessing? then Run(s, Returned(Some(AlreadyCompletedDict(true))), ws)
        else HandleError(s, ws, id, e, env)
  }

  /** Corrected: every redelivery of a completed payout reports it as already completed, without writing. */
  lemma IntendedCompletedIsReported(store: Store, id: PayoutId, env: Env)
    requires id in store && store[id].status == Completed && FetchSucceeds(env)
    ensures ProcessIntended(store, id, env).outcome == Returned(Some(AlreadyCompletedDict(true)))
    ensures ProcessIntended(ProcessIntended(store, id, env).store, id, env) == ProcessIntended(store, id, env)
  {
  }
}

=== FILE: json.dfy ===
/** The JSON-shaped values a request body or a JSON column can hold. */
module Json {

  datatype Json =
    | JNull
    | JBool(b: bool)
    | JNumber(n: real)
    | JString(s: string)
    | JArray(items: seq<Json>)
    | JObject(fields: map<string, Json>)

  /** Python truthiness of the decoded value: `None`, `False`, zero and empty containers are false. */
  predicate Truthy(v: Json) {
    match v
    case JNull => false
    case JBool(b) => b
    case JNumber(n) => n != 0.0
    case JString(s) => s != ""
    case JArray(items) => |items| > 0
    case JObject(fields) => |fields| > 0
  }
}

=== FILE: luhn.dfy ===
/**
  The Luhn check-digit test of ISO/IEC 7812-1 (Annex B), as the payouts
  card schema applies it to a card number: collect the decimal digits, take
  the last one off as the check digit, walk the rest from the right and
  double every other digit starting with the first, taking 9 off a doubled
  value above 9, and accept when the total plus the check digit is a
  multiple of ten.
*/
module Luhn {
  import opened Wrappers
  import opened Chars

  predicate IsDigitSeq(ds: seq<nat>) {
    forall i :: 0 <= i < |ds| ==> ds[i] < 10
  }

  /** The decimal digits of `v`, in order; every other character is dropped. */
  function CollectDigits(v: string): (ds: seq<nat>)
    ensures IsDigitSeq(ds) && |ds| <= |v|
    ensures AllDigits(v) ==> |ds| == |v| && forall i :: 0 <= i < |v| ==> ds[i] == DigitValue(v[i])
  {
    if v == [] then []
    else if IsDigit(v[0]) then [DigitValue(v[0])] + CollectDigits(v[1..])
    else CollectDigits(v[1..])
  }

  /** Collecting digits distributes over concatenation. */
  lemma {:induction false} CollectDigitsAppend(a: string, b: string)
    ensures CollectDigits(a + b) == CollectDigits(a) + CollectDigits(b)
  {
    if a != [] {
      assert (a + b)[1..] == a[1..] + b;
      CollectDigitsAppend(a[1..], b);
    } else {
      assert a + b == b;
    }
  }

  /** A character that is not a decimal digit contributes nothing; a digit contributes its value. */
  lemma CollectDigitsOfOne(c: char)
    ensures !IsDigit(c) ==> CollectDigits([c]) == []
    ensures IsDigit(c) ==> CollectDigits([c]) == [DigitValue(c)]
  {
  }

  /** A doubled digit with 9 taken off when it exceeds 9: the sum of the decimal digits of `2 * d`. */
  function DoubleReduced(d: nat): (r: nat)
    requires d < 10
    ensures r < 10
    ensures r == (2 * d) / 10 + (2 * d) % 10
  {
    if 2 * d > 9 then 2 * d - 9 else 2 * d
  }

  /** Distinct digits stay distinct after doubling and reducing. */
  lemma DoubleReducedInjective(d: nat, e: nat)
    requires d < 10 && e < 10 && d != e
    ensures DoubleReduced(d) != DoubleReduced(e)
  {
  }

  function Contribution(d: nat, doubled: bool): (r: nat)
    requires d < 10
    ensures r < 10
  {
    if doubled then DoubleReduced(d) else d
  }

  /**
    The Luhn sum read from the right end of `ds`: the rightmost digit is
    doubled when `doubleLast` holds, and the choice alternates leftwards.
  */
  function SumFromRight(ds: seq<nat>, doubleLast: bool): nat
    requires IsDigitSeq(ds)
  {
    if ds == [] then 0
    else Contribution(ds[|ds| - 1], doubleLast) + SumFromRight(ds[..|ds| - 1], !doubleLast)
  }

  /** A digit string passes when the check digit is undoubled and the whole sum is a multiple of ten. */
  predicate LuhnValid(ds: seq<nat>)
    requires IsDigitSeq(ds)
  {
    |ds| > 0 && SumFromRight(ds, false) % 10 == 0
  }

  function Reverse(s: seq<nat>): (r: seq<nat>)
    ensures |r| == |s|
    ensures forall i :: 0 <= i < |s| ==> r[i] == s[|s| - 1 - i]
  {
    if s == [] then [] else Reverse(s[1..]) + [s[0]]
  }

  datatype LuhnError = WrongDigitCount | BadChecksum

  /**
    The card-number validator: refuses a digit count outside 13..19, then
    runs the checksum loop; on acceptance hands its input back unchanged.
  */
  method ValidateLuhn(v: string) returns (r: Result<string, LuhnError>)
    ensures r.Success? <==> 13 <= |CollectDigits(v)| <= 19 && LuhnValid(CollectDigits(v))
    ensures r.Success? ==> r.value == v
    ensures r == Failure(WrongDigitCount) <==> !(13 <= |CollectDigits(v)| <= 19)
  {
    var digits := CollectDigits(v);
    if |digits| < 13 || |digits| > 19 {
      return Failure(WrongDigitCount);
    }
    var checkDigit := digits[|digits| - 1];
    var rest := digits[..|digits| - 1];
    var reversed := Reverse(rest);
    var total := 0;
    var i := 0;
    assert rest[..|rest|] == rest;
    while i < |reversed|
      invariant 0 <= i <= |reversed|
      invariant total + SumFromRight(rest[..|rest| - i], i % 2 == 0) == SumFromRight(rest, true)
    {
      assert rest[..|rest| - i][..|rest| - i - 1] == rest[..|rest| - i - 1];
      var digit := reversed[i];
      if i % 2 == 0 {
        digit := digit * 2;
        if digit > 9 {
          digit := digit - 9;
        }
      }
      total := total + digit;
      i := i + 1;
    }
    assert rest[..0] == [];
    total := total + checkDigit;
    if total % 10 != 0 {
      return Failure(BadChecksum);
    }
    return Success(v);
  }

  /** Collecting the digits of an all-digit string, given digit by digit. */
  lemma CollectDigitsOfDigitString(v: string, ds: seq<nat>)
    requires |v| == |ds|
    requires forall j :: 0 <= j < |v| ==> IsDigit(v[j]) && DigitValue(v[j]) == ds[j]
    ensures CollectDigits(v) == ds
  {
    var i := 0;
    while i < |v|
      invariant 0 <= i <= |v|
      invariant CollectDigits(v[..i]) == ds[..i]
    {
      assert v[..i + 1] == v[..i] + [v[i]];
      CollectDigitsAppend(v[..i], [v[i]]);
      CollectDigitsOfOne(v[i]);
      assert ds[..i + 1] == ds[..i] + [ds[i]];
      i := i + 1;
    }
    assert v[..|v|] == v;
    assert ds[..|ds|] == ds;
  }

  /**
    The Luhn sum accumulated left to right: `partial[k]` is the total of the
    first `k` contributions, the digit at `k` being doubled when an odd number
    of digits follows it.
  */
  lemma SumFromRightByPartialSums(ds: seq<nat>, partial: seq<nat>)
    requires IsDigitSeq(ds) && |partial| == |ds| + 1 && partial[0] == 0
    requires forall k :: 0 <= k < |ds| ==>
               partial[k + 1] == partial[k] + Contribution(ds[k], (|ds| - 1 - k) % 2 == 1)
    ensures SumFromRight(ds, false) == partial[|ds|]
  {
    PrefixByPartialSums(ds, partial, |ds|);
    assert ds[..|ds|] == ds;
  }

  /** The first `i` digits, doubled by their distance from the right end of all of `ds`, sum to `partial[i]`. */
  lemma {:induction false} PrefixByPartialSums(ds: seq<nat>, partial: seq<nat>, i: nat)
    requires IsDigitSeq(ds) && |partial| == |ds| + 1 && partial[0] == 0 && i <= |ds|
    requires forall k :: 0 <= k < |ds| ==>
               partial[k + 1] == partial[k] + Contribution(ds[k], (|ds| - 1 - k) % 2 == 1)
    ensures SumFromRight(ds[..i], (|ds| - i) % 2 == 1) == partial[i]
  {
    if i == 0 {
      assert ds[..0] == [];
    } else {
      PrefixByPartialSums(ds, partial, i - 1);
      var doubled := (|ds| - i) % 2 == 1;
      assert (|ds| - (i - 1)) % 2 == 1 <==> !doubled;
      SumFromRightExtend(ds, i - 1, doubled);
    }
  }

  /** Extending a prefix by one digit adds that digit's contribution and flips the doubling of the rest. */
  lemma SumFromRightExtend(ds: seq<nat>, i: nat, doubled: bool)
    requires IsDigitSeq(ds) && i < |ds|
    ensures SumFromRight(ds[..i + 1], doubled) == Contribution(ds[i], doubled) + SumFromRight(ds[..i], !doubled)
  {
    assert ds[..i + 1][..i] == ds[..i];
  }

  /** The position of index `k` from the right decides whether it is doubled. */
  function DoubledAt(n: nat, k: nat, doubleLast: bool): bool {
    if (n - 1 - k) % 2 == 0 then doubleLast else !doubleLast
  }

  /** Changing one digit changes the sum by exactly the change in that digit's contribution. */
  lemma {:induction false} SumFromRightUpdate(ds: seq<nat>, k: nat, x: nat, doubleLast: bool)
    requires IsDigitSeq(ds) && k < |ds| && x < 10
    ensures IsDigitSeq(ds[k := x])
    ensures SumFromRight(ds[k := x], doubleLast) + Contribution(ds[k], DoubledAt(|ds|, k, doubleLast))
            == SumFromRight(ds, doubleLast) + Contribution(x, DoubledAt(|ds|, k, doubleLast))
  {
    var ds' := ds[k := x];
    var n := |ds|;
    if k == n - 1 {
      assert ds'[..n - 1] == ds[..n - 1];
    } else {
      assert ds'[..n - 1] == ds[..n - 1][k := x];
      SumFromRightUpdate(ds[..n - 1], k, x, !doubleLast);
      assert DoubledAt(n - 1, k, !doubleLast) == DoubledAt(n, k, doubleLast);
    }
  }

  /** Every single-digit substitution error turns a valid number into an invalid one. */
  lemma SingleDigitErrorDetected(ds: seq<nat>, k: nat, x: nat)
    requires IsDigitSeq(ds) && k < |ds| && x < 10 && x != ds[k]
    requires LuhnValid(ds)
    ensures IsDigitSeq(ds[k := x])
    ensures !LuhnValid(ds[k := x])
  {
    var doubled := DoubledAt(|ds|, k, false);
    SumFromRightUpdate(ds, k, x, false);
    if doubled {
      DoubleReducedInjective(ds[k], x);
    }
    var a := Contribution(ds[k], doubled);
    var b := Contribution(x, doubled);
    assert a != b;
  }
}

=== FILE: payment_schemas.dfy ===
/**
  The request schemas of the payment application: the three recipient
  shapes (bank account, card, crypto wallet) and the base payout body.
  A recipient arrives as a JSON object; each schema reads the fields it
  declares, ignores the others, and refuses the object when a field is
  missing, is not a string, or has a length outside its bounds.
*/
module PaymentSchemas {
  import opened Wrappers
  import opened Json
  import opened Enums
  import opened Expiry

  type Fields = map<string, Json>

  const AccountNumberMin: nat := 10
  const AccountNumberMax: nat := 34
  const BankNameMin: nat := 2
  const BankNameMax: nat := 100
  const BikLength: nat := 9
  const CorrespondentAccountLength: nat := 20
  const CardNumberMin: nat := 16
  const CardNumberMax: nat := 19
  const CardHolderMin: nat := 2
  const CardHolderMax: nat := 100
  const WalletAddressMin: nat := 26
  const WalletAddressMax: nat := 64
  const NetworkMin: nat := 2
  const NetworkMax: nat := 20
  const CryptoCurrencyMin: nat := 2
  const CryptoCurrencyMax: nat := 10
  const DescriptionMax: nat := 500

  /** A string of length `lo..hi` under `name`. */
  predicate StringIn(data: Fields, name: string, lo: nat, hi: nat) {
    name in data && data[name].JString? && lo <= |data[name].s| <= hi
  }

  /** Absent or null under `name`, or a string of exactly `length` characters. */
  predicate OptionalOfLength(data: Fields, name: string, length: nat) {
    name !in data || data[name] == JNull || (data[name].JString? && |data[name].s| == length)
  }

  /** A required string field with length bounds; the error names the field. */
  function RequiredString(data: Fields, name: string, lo: nat, hi: nat): (r: Result<string, string>)
    ensures r.Success? <==> StringIn(data, name, lo, hi)
    ensures r.Success? ==> r.value == data[name].s
    ensures r.Failure? ==> r.error == name
  {
    if name in data && data[name].JString? && lo <= |data[name].s| <= hi then Success(data[name].s)
    else Failure(name)
  }

  /** An optional string field of fixed length; absent and null both read as `None`. */
  function OptionalString(data: Fields, name: string, length: nat): (r: Result<Option<string>, string>)
    ensures r.Success? <==> OptionalOfLength(data, name, length)
    ensures r.Success? ==> (r.value.Some? <==> name in data && data[name].JString?)
    ensures r.Success? && r.value.Some? ==> r.value.value == data[name].s
  {
    if name !in data || data[name] == JNull then Success(None)
    else if data[name].JString? && |data[name].s| == length then Success(Some(data[name].s))
    else Failure(name)
  }

  datatype BankAccount = BankAccount(
    accountNumber: string,
    bankName: string,
    bik: Option<string>,
    correspondentAccount: Option<string>)

  datatype Card = Card(cardNumber: string, cardHolder: string, expiryDate: string)

  datatype CryptoWallet = CryptoWallet(walletAddress: string, network: string, currency: string)

  predicate BankAccountAccepted(data: Fields) {
    && StringIn(data, "account_number", AccountNumberMin, AccountNumberMax)
    && StringIn(data, "bank_name", BankNameMin, BankNameMax)
    && OptionalOfLength(data, "bik", BikLength)
    && OptionalOfLength(data, "correspondent_account", CorrespondentAccountLength)
  }

  predicate CardAccepted(data: Fields) {
    && StringIn(data, "card_number", CardNumberMin, CardNumberMax)
    && StringIn(data, "card_holder", CardHolderMin, CardHolderMax)
    && "expiry_date" in data && data["expiry_date"].JString? && MatchesExpiryPattern(data["expiry_date"].s)
  }

  predicate CryptoWalletAccepted(data: Fields) {
    && StringIn(data, "wallet_address", WalletAddressMin, WalletAddressMax)
    && StringIn(data, "network", NetworkMin, NetworkMax)
    && StringIn(data, "currency", CryptoCurrencyMin, CryptoCurrencyMax)
  }

  /** The string under `name`, or `None` when the field is absent or not a string. */
  function StringOrNone(data: Fields, name: string): Option<string> {
    if name in data && data[name].JString? then Some(data[name].s) else None
  }

  function ParseBankAccount(data: Fields): (r: Result<BankAccount, string>)
    ensures r.Success? <==> BankAccountAccepted(data)
    ensures r.Success? ==>
              r.value == BankAccount(data["account_number"].s, data["bank_name"].s,
                                     StringOrNone(data, "bik"), StringOrNone(data, "correspondent_account"))
  {
    var accountNumber :- RequiredString(data, "account_number", AccountNumberMin, AccountNumberMax);
    var bankName :- RequiredString(data, "bank_name", BankNameMin, BankNameMax);
    var bik :- OptionalString(data, "bik", BikLength);
    var correspondentAccount :- OptionalString(data, "correspondent_account", CorrespondentAccountLength);
    Success(BankAccount(accountNumber, bankName, bik, correspondentAccount))
  }

  /** The card recipient of the payment application: a length check on the number, no Luhn test. */
  function ParseCard(data: Fields): (r: Result<Card, string>)
    ensures r.Success? <==> CardAccepted(data)
    ensures r.Success? ==> r.value == Card(data["card_number"].s, data["card_holder"].s, data["expiry_date"].s)
  {
    var cardNumber :- RequiredString(data, "card_number", CardNumberMin, CardNumberMax);
    var cardHolder :- RequiredString(data, "card_holder", CardHolderMin, CardHolderMax);
    if "expiry_date" in data && data["expiry_date"].JString? && MatchesExpiryPattern(data["expiry_date"].s) then
      Success(Card(cardNumber, cardHolder, data["expiry_date"].s))
    else
      Failure("expiry_date")
  }

  function ParseCryptoWallet(data: Fields): (r: Result<CryptoWallet, string>)
    ensures r.Success? <==> CryptoWalletAccepted(data)
    ensures r.Success? ==> r.value == CryptoWallet(data["wallet_address"].s, data["network"].s, data["currency"].s)
  {
    var walletAddress :- RequiredString(data, "wallet_address", WalletAddressMin, WalletAddressMax);
    var network :- RequiredString(data, "network", NetworkMin, NetworkMax);
    var currency :- RequiredString(data, "currency", CryptoCurrencyMin, CryptoCurrencyMax);
    Success(CryptoWallet(walletAddress, network, currency))
  }

  function OptionToJson(o: Option<string>): Json {
    if o.Some? then JString(o.value) else JNull
  }

  /** The field dictionary of a bank account, `None` fields as null. */
  function BankAccountFields(b: BankAccount): Fields {
    map["account_number" := JString(b.accountNumber), "bank_name" := JString(b.bankName),
        "bik" := OptionToJson(b.bik), "correspondent_account" := OptionToJson(b.correspondentAccount)]
  }

  function CardFields(c: Card): Fields {
    map["card_number" := JString(c.cardNumber), "card_holder" := JString(c.cardHolder),
        "expiry_date" := JString(c.expiryDate)]
  }

  function CryptoWalletFields(w: CryptoWallet): Fields {
    map["wallet_address" := JString(w.walletAddress), "network" := JString(w.network),
        "currency" := JString(w.currency)]
  }

  predicate BankAccountValid(b: BankAccount) {
    && AccountNumberMin <= |b.accountNumber| <= AccountNumberMax
    && BankNameMin <= |b.bankName| <= BankNameMax
    && (b.bik.Some? ==> |b.bik.value| == BikLength)
    && (b.correspondentAccount.Some? ==> |b.correspondentAccount.value| == CorrespondentAccountLength)
  }

  /** A valid bank account survives being written out as fields and read back; an invalid one is refused. */
  lemma BankAccountRoundTrip(b: BankAccount)
    ensures BankAccountValid(b) ==> ParseBankAccount(BankAccountFields(b)) == Success(b)
    ensures !BankAccountValid(b) ==> ParseBankAccount(BankAccountFields(b)).Failure?
  {
  }

  lemma CardRoundTrip(c: Card)
    ensures ParseCard(CardFields(c)).Success? <==>
              && CardNumberMin <= |c.cardNumber| <= CardNumberMax
              && CardHolderMin <= |c.cardHolder| <= CardHolderMax
              && MatchesExpiryPattern(c.expiryDate)
    ensures ParseCard(CardFields(c)).Success? ==> ParseCard(CardFields(c)).value == c
  {
  }

  lemma CryptoWalletRoundTrip(w: CryptoWallet)
    ensures ParseCryptoWallet(CryptoWalletFields(w)).Success? <==>
              && WalletAddressMin <= |w.walletAddress| <= WalletAddressMax
              && NetworkMin <= |w.network| <= NetworkMax
              && CryptoCurrencyMin <= |w.currency| <= CryptoCurrencyMax
    ensures ParseCryptoWallet(CryptoWalletFields(w)).Success? ==> ParseCryptoWallet(CryptoWalletFields(w)).value == w
  {
  }

  /** The base payout body, with the currency left out when absent. */
  datatype PayoutInput = PayoutInput(amount: real, currency: Option<string>, recipientDetails: Json, description: Option<string>)

  datatype PayoutBase = PayoutBase(amount: real, currency: Currency, recipientDetails: Fields, description: Option<string>)

  /** Amount above zero, a known currency code (RUB when absent), an object of recipient details, a description of at most 500 characters. */
  function ValidatePayoutBase(input: PayoutInput): (r: Result<PayoutBase, string>)
    ensures r.Success? <==>
              && input.amount > 0.0
              && (input.currency.None? || input.currency.value in {"RUB", "USD", "EUR", "KZT"})
              && input.recipientDetails.JObject?
              && (input.description.None? || |input.description.value| <= DescriptionMax)
    ensures r.Success? && input.currency.None? ==> r.value.currency == RUB
    ensures r.Success? && input.currency.Some? ==> CurrencyCode(r.value.currency) == input.currency.value
    ensures r.Success? ==> r.value.amount == input.amount && r.value.description == input.description
    ensures r.Success? ==> r.value.recipientDetails == input.recipientDetails.fields
  {
    if !(input.amount > 0.0) then Failure("amount")
    else
      var currency :=
        if input.currency.None? then Some(RUB) else ParseCurrency(input.currency.value);
      if currency.None? then Failure("currency")
      else if !input.recipientDetails.JObject? then Failure("recipient_details")
      else if input.description.Some? && |input.description.value| > DescriptionMax then Failure("description")
      else Success(PayoutBase(input.amount, currency.value, input.recipientDetails.fields, input.description))
  }

  /** The constraints a parsed payout body meets: a positive amount and a description of at most 500 characters. */
  predicate PayoutBaseValid(b: PayoutBase) {
    b.amount > 0.0 && (b.description.None? || |b.description.value| <= DescriptionMax)
  }

  /** A parsed payout body written back as a request body, with the currency given by its code. */
  function PayoutBaseInput(b: PayoutBase): PayoutInput {
    PayoutInput(b.amount, Some(CurrencyCode(b.currency)), JObject(b.recipientDetails), b.description)
  }

  /** Writing a payout body out and validating it again gives it back exactly when it meets the constraints. */
  lemma PayoutBaseRoundTrip(b: PayoutBase)
    ensures ValidatePayoutBase(PayoutBaseInput(b)).Success? <==> PayoutBaseValid(b)
    ensures PayoutBaseValid(b) ==> ValidatePayoutBase(PayoutBaseInput(b)) == Success(b)
  {
    CurrencyRoundTrip(b.currency);
  }
}

=== FILE: payment_validators.dfy ===
/**
  The payment application's validators: dispatch of the recipient details
  on their `type` field, and the per-currency amount limits.
*/
module PaymentValidators {
  import opened Wrappers
  import opened Json
  import opened Enums
  import opened PaymentSchemas

  datatype RecipientDetails =
    | BankAccountDetails(bankAccount: BankAccount)
    | CardDetails(card: Card)
    | CryptoDetails(wallet: CryptoWallet)

  const TypeField: string := "recipient_details.type"

  /** `data.get('type')`: the value under `type`, or null when there is none. */
  function TypeOf(data: Fields): Json {
    if "type" in data then data["type"] else JNull
  }

  /**
    A missing or falsy `type` is refused first; then `bank_account`, `card`
    and `crypto` select their schema, and any other value is refused. The
    error names the refused field.
  */
  function ValidateRecipientDetails(data: Fields): (r: Result<RecipientDetails, string>)
    ensures !Truthy(TypeOf(data)) ==> r == Failure(TypeField)
    ensures TypeOf(data) !in {JString("bank_account"), JString("card"), JString("crypto")} ==> r == Failure(TypeField)
    ensures r.Success? <==>
              || (TypeOf(data) == JString("bank_account") && BankAccountAccepted(data))
              || (TypeOf(data) == JString("card") && CardAccepted(data))
              || (TypeOf(data) == JString("crypto") && CryptoWalletAccepted(data))
    ensures r.Success? && r.value.BankAccountDetails? ==> TypeOf(data) == JString("bank_account")
    ensures r.Success? && r.value.CardDetails? ==> TypeOf(data) == JString("card")
    ensures r.Success? && r.value.CryptoDetails? ==> TypeOf(data) == JString("crypto")
    ensures r.Success? && TypeOf(data) == JString("bank_account") ==>
              r.value == BankAccountDetails(ParseBankAccount(data).value)
    ensures r.Success? && TypeOf(data) == JString("card") ==> r.value == CardDetails(ParseCard(data).value)
    ensures r.Success? && TypeOf(data) == JString("crypto") ==> r.value == CryptoDetails(ParseCryptoWallet(data).value)
  {
    var detailsType := TypeOf(data);
    if !Truthy(detailsType) then Failure(TypeField)
    else if detailsType == JString("bank_account") then
      var b :- ParseBankAccount(data);
      Success(BankAccountDetails(b))
    else if detailsType == JString("card") then
      var c :- ParseCard(data);
      Success(CardDetails(c))
    else if detailsType == JString("crypto") then
      var w :- ParseCryptoWallet(data);
      Success(CryptoDetails(w))
    else
      Failure(TypeField)
  }

  /** A bank account written out with its `type` tag is accepted and read back unchanged. */
  lemma TaggedBankAccountAccepted(b: BankAccount)
    requires BankAccountValid(b)
    ensures ValidateRecipientDetails(BankAccountFields(b)["type" := JString("bank_account")])
            == Success(BankAccountDetails(b))
  {
    var data := BankAccountFields(b)["type" := JString("bank_account")];
    BankAccountRoundTrip(b);
    assert ParseBankAccount(data) == ParseBankAccount(BankAccountFields(b));
  }

  /** The limits table, keyed by currency code: (minimum, maximum). */
  const AmountLimits: map<string, (int, int)> := map[
    "RUB" := (10, 1000000),
    "USD" := (1, 10000),
    "EUR" := (1, 10000),
    "KZT" := (100, 5000000)
  ]

  datatype AmountError = UnsupportedCurrency(code: string) | BelowMinimum(minimum: int) | AboveMaximum(maximum: int)

  /** Unknown currency first, then the minimum, then the maximum; both bounds are inclusive. */
  function ValidateAmountByCurrency(amount: real, currency: string): (r: Result<(), AmountError>)
    ensures currency !in AmountLimits ==> r == Failure(UnsupportedCurrency(currency))
    ensures currency in AmountLimits && amount < AmountLimits[currency].0 as real ==>
              r == Failure(BelowMinimum(AmountLimits[currency].0))
    ensures currency in AmountLimits && AmountLimits[currency].0 as real <= amount && amount > AmountLimits[currency].1 as real ==>
              r == Failure(AboveMaximum(AmountLimits[currency].1))
    ensures r.Success? <==>
              currency in AmountLimits && AmountLimits[currency].0 as real <= amount <= AmountLimits[currency].1 as real
  {
    if currency !in AmountLimits then Failure(UnsupportedCurrency(currency))
    else
      var (minimum, maximum) := AmountLimits[currency];
      if amount < minimum as real then Failure(BelowMinimum(minimum))
      else if amount > maximum as real then Failure(AboveMaximum(maximum))
      else Success(())
  }

  /** The limits per member of the currency enumeration. */
  function CurrencyLimits(c: Currency): (nat, nat) {
    match c
    case RUB => (10, 1000000)
    case USD => (1, 10000)
    case EUR => (1, 10000)
    case KZT => (100, 5000000)
  }

  /**
    The table covers exactly the currency enumeration, agrees with the
    per-currency limits, and every minimum lies below its maximum.
  */
  lemma LimitsCoverCurrencies()
    ensures forall c: Currency :: CurrencyCode(c) in AmountLimits && AmountLimits[CurrencyCode(c)] == CurrencyLimits(c)
    ensures forall code :: code in AmountLimits ==> ParseCurrency(code).Some?
    ensures forall code :: code in AmountLimits ==> AmountLimits[code].0 < AmountLimits[code].1
  {
    forall c: Currency
      ensures CurrencyCode(c) in AmountLimits && AmountLimits[CurrencyCode(c)] == CurrencyLimits(c)
    {
      match c
      case RUB =>
      case USD =>
      case EUR =>
      case KZT =>
    }
  }

  /** The amount check in terms of the enumeration: a known code and an amount within its inclusive limits. */
  lemma AmountAcceptedIffWithinLimits(amount: real, code: string)
    ensures ValidateAmountByCurrency(amount, code).Success? <==>
              ParseCurrency(code).Some? &&
              CurrencyLimits(ParseCurrency(code).value).0 as real <= amount <= CurrencyLimits(ParseCurrency(code).value).1 as real
  {
    LimitsCoverCurrencies();
    if ParseCurrency(code).Some? {
      CurrencyRoundTrip(ParseCurrency(code).value);
    }
  }

  /** The minimum and the maximum themselves are accepted. */
  lemma LimitsAreInclusive(c: Currency)
    ensures ValidateAmountByCurrency(CurrencyLimits(c).0 as real, CurrencyCode(c)).Success?
    ensures ValidateAmountByCurrency(CurrencyLimits(c).1 as real, CurrencyCode(c)).Success?
  {
    LimitsCoverCurrencies();
  }
}

=== FILE: payouts_schemas.dfy ===
/**
  The request schema of the payouts application: the card recipient
  (number, holder, expiry) and the amount field.
*/
module PayoutsSchemas {
  import opened Wrappers
  import opened Chars
  import opened Luhn
  import opened Expiry
  import opened DecimalAmount

  const CardNumberMinLength: nat := 13
  const CardNumberMaxLength: nat := 19
  const CardHolderMinLength: nat := 4
  const CardHolderMaxLength: nat := 100

  /** The card recipient as submitted. */
  datatype CardInput = CardInput(cardNumber: string, cardHolder: string, expiryDate: string)

  /** The card number field: 13 to 19 ASCII digits that pass the Luhn test. */
  predicate CardNumberAccepted(v: string) {
    CardNumberMinLength <= |v| <= CardNumberMaxLength && AllDigits(v) && LuhnValid(CollectDigits(v))
  }

  /**
    The card number field: the length bounds and the pattern `^[0-9]{13,19}$`
    first, then the Luhn validator on what they let through. The error names
    the refused field.
  */
  method ValidateCardNumber(v: string) returns (r: Result<string, string>)
    ensures r.Success? <==> CardNumberAccepted(v)
    ensures r.Success? ==> r.value == v
  {
    if |v| < CardNumberMinLength || |v| > CardNumberMaxLength {
      return Failure("card_number");
    }
    var i := 0;
    while i < |v|
      invariant 0 <= i <= |v|
      invariant forall j :: 0 <= j < i ==> IsDigit(v[j])
    {
      if !IsDigit(v[i]) {
        return Failure("card_number");
      }
      i := i + 1;
    }
    var checked := ValidateLuhn(v);
    if checked.Failure? {
      return Failure("card_number");
    }
    return Success(v);
  }

  /**
    The whole card recipient. The holder's length is checked; its
    letters-and-hyphen pattern is not part of this model.
  */
  method ValidateCard(c: CardInput) returns (r: Result<CardInput, string>)
    ensures r.Success? <==>
              && CardNumberAccepted(c.cardNumber)
              && CardHolderMinLength <= |c.cardHolder| <= CardHolderMaxLength
              && MatchesExpiryPattern(c.expiryDate)
    ensures r.Success? ==> r.value == c
  {
    var number := ValidateCardNumber(c.cardNumber);
    if number.Failure? {
      return Failure("card_number");
    }
    if |c.cardHolder| < CardHolderMinLength || |c.cardHolder| > CardHolderMaxLength {
      return Failure("card_holder");
    }
    if !MatchesExpiryPattern(c.expiryDate) {
      return Failure("expiry_date");
    }
    return Success(c);
  }

  /**
    A 13-to-19-character digit string is accepted when its digits, given one
    by one, have left-to-right Luhn partial sums ending in a multiple of ten.
  */
  lemma AcceptedByPartialSums(v: string, ds: seq<nat>, partial: seq<nat>)
    requires CardNumberMinLength <= |v| <= CardNumberMaxLength && |v| == |ds|
    requires forall j :: 0 <= j < |v| ==> IsDigit(v[j]) && DigitValue(v[j]) == ds[j]
    requires IsDigitSeq(ds) && |partial| == |ds| + 1 && partial[0] == 0 && partial[|ds|] % 10 == 0
    requires forall k :: 0 <= k < |ds| ==>
               partial[k + 1] == partial[k] + Contribution(ds[k], (|ds| - 1 - k) % 2 == 1)
    ensures CardNumberAccepted(v)
  {
    CollectDigitsOfDigitString(v, ds);
    SumFromRightByPartialSums(ds, partial);
  }

  lemma Example5555Digits(v: string, ds: seq<nat>, partial: seq<nat>)
    requires v == "5555555555554444" && ds == [5, 5, 5, 5, 5, 5, 5, 5, 5, 5, 5, 5, 4, 4, 4, 4]
    requires partial == [0, 1, 6, 7, 12, 13, 18, 19, 24, 25, 30, 31, 36, 44, 48, 56, 60]
    ensures |v| == 16 && |v| == |ds|
    ensures forall j :: 0 <= j < |v| ==> IsDigit(v[j]) && DigitValue(v[j]) == ds[j]
    ensures IsDigitSeq(ds) && |partial| == |ds| + 1 && partial[0] == 0 && partial[|ds|] % 10 == 0
    ensures forall k :: 0 <= k < |ds| ==>
              partial[k + 1] == partial[k] + Contribution(ds[k], (|ds| - 1 - k) % 2 == 1)
  {
  }

  lemma Example6011Digits(v: string, ds: seq<nat>, partial: seq<nat>)
    requires v == "6011000990139424" && ds == [6, 0, 1, 1, 0, 0, 0, 9, 9, 0, 1, 3, 9, 4, 2, 4]
    requires partial == [0, 3, 3, 5, 6, 6, 6, 6, 15, 24, 24, 26, 29, 38, 42, 46, 50]
    ensures |v| == 16 && |v| == |ds|
    ensures forall j :: 0 <= j < |v| ==> IsDigit(v[j]) && DigitValue(v[j]) == ds[j]
    ensures IsDigitSeq(ds) && |partial| == |ds| + 1 && partial[0] == 0 && partial[|ds|] % 10 == 0
    ensures forall k :: 0 <= k < |ds| ==>
              partial[k + 1] == partial[k] + Contribution(ds[k], (|ds| - 1 - k) % 2 == 1)
  {
  }

  lemma Example5892Digits(v: string, ds: seq<nat>, partial: seq<nat>)
    requires v == "5892830000000000" && ds == [5, 8, 9, 2, 8, 3, 0, 0, 0, 0, 0, 0, 0, 0, 0, 0]
    requires partial == [0, 1, 9, 18, 20, 27, 30, 30, 30, 30, 30, 30, 30, 30, 30, 30, 30]
    ensures |v| == 16 && |v| == |ds|
    ensures forall j :: 0 <= j < |v| ==> IsDigit(v[j]) && DigitValue(v[j]) == ds[j]
    ensures IsDigitSeq(ds) && |partial| == |ds| + 1 && partial[0] == 0 && partial[|ds|] % 10 == 0
    ensures forall k :: 0 <= k < |ds| ==>
              partial[k + 1] == partial[k] + Contribution(ds[k], (|ds| - 1 - k) % 2 == 1)
  {
  }

  /** The three example card numbers the schema documents pass the card number field. */
  lemma DocumentedExamplesAccepted(v: string)
    requires v in {"5555555555554444", "6011000990139424", "5892830000000000"}
    ensures CardNumberAccepted(v)
  {
    if v == "5555555555554444" {
      var ds: seq<nat> := [5, 5, 5, 5, 5, 5, 5, 5, 5, 5, 5, 5, 4, 4, 4, 4];
      var partial: seq<nat> := [0, 1, 6, 7, 12, 13, 18, 19, 24, 25, 30, 31, 36, 44, 48, 56, 60];
      Example5555Digits(v, ds, partial);
      AcceptedByPartialSums(v, ds, partial);
    } else if v == "6011000990139424" {
      var ds: seq<nat> := [6, 0, 1, 1, 0, 0, 0, 9, 9, 0, 1, 3, 9, 4, 2, 4];
      var partial: seq<nat> := [0, 3, 3, 5, 6, 6, 6, 6, 15, 24, 24, 26, 29, 38, 42, 46, 50];
      Example6011Digits(v, ds, partial);
      AcceptedByPartialSums(v, ds, partial);
    } else {
      var ds: seq<nat> := [5, 8, 9, 2, 8, 3, 0, 0, 0, 0, 0, 0, 0, 0, 0, 0];
      var partial: seq<nat> := [0, 1, 9, 18, 20, 27, 30, 30, 30, 30, 30, 30, 30, 30, 30, 30, 30];
      Example5892Digits(v, ds, partial);
      AcceptedByPartialSums(v, ds, partial);
    }
  }

  /** The amount field: the constraint-level test and its meaning in whole hundredths. */
  function ValidateAmount(d: Decimal): (r: Result<Decimal, string>)
    ensures r.Success? <==> !d.negative && Cents(d).Some? && 0 < Cents(d).value < Pow10(MaxDigits)
    ensures r.Success? ==> r.value == d
  {
    AmountAcceptedIffWholeCents(d);
    if AmountAccepted(d) then Success(d) else Failure("amount")
  }
}

=== FILE: processing.dfy ===
/**
  The payout-processing worker: one invocation of the processing service on
  one payout id, over a record store that maps ids to payout records.

  The store is a value; the clock is the integer `env.now` (microseconds);
  an unexpected exception is injected through `env.fault`, which names the
  store or payment-rail operation that raises and the exception's message;
  `env.recordWriteFails` makes the failure-recording transaction itself
  raise. A fault fires only when its operation is reached, and it fires
  before that operation's write commits (each write is one atomic
  transaction, so a raising write leaves the store as it was).

  The exceptions used for control flow by the source become the `Exc`
  datatype, and what `process` hands back to its caller becomes `Outcome`:
  either a returned value (a result dictionary or `None`) or a raised
  exception.
*/
module Processing {
  import opened Wrappers
  import opened Enums
  import opened Json

  type PayoutId = string

  /** A stored payout; its id is the store key it lives under. */
  datatype Payout = Payout(
    amountCents: int,
    currency: Currency,
    recipientDetails: Json,
    status: Status,
    description: Option<string>,
    createdAt: int,
    updatedAt: int)

  type Store = map<PayoutId, Payout>

  /** The stuck-job threshold: five minutes, in microseconds. */
  const StaleAfter: int := 5 * 60 * 1000000

  /** The simulated processing stages, in the order they run. */
  const Stages: seq<string> := [
    "Проверка данных",
    "Верификация баланса",
    "Резервирование средств",
    "Подготовка транзакции",
    "Отправка в платежную систему"
  ]

  /** The prefix put in front of an error message appended to a description. */
  const ErrorPrefix: string := "Ошибка: "

  /** The message Django's not-found exception carries for a missing payout. */
  const NotFoundMessage: string := "No Payout matches the given query."

  /** The operations that can raise an unexpected exception. */
  datatype FaultPoint =
    | FetchFault            // the initial lookup of the payout
    | ResetWriteFault       // the stuck-job reset to pending
    | ProcessingWriteFault  // the write of status processing
    | StageFault(index: nat) // simulated stage `index` (0-based)
    | CompleteWriteFault    // the write of status completed

  datatype Fault = Fault(point: FaultPoint, message: string)

  datatype Env = Env(now: int, fault: Option<Fault>, recordWriteFails: bool)

  /** Exceptions that can travel through `process`. */
  datatype Exc =
    | StopProcessing(result: Option<ResultDict>)
    | ProcessingInProgress
    | Http404
    | DoesNotExist
    | Unexpected(message: string)

  /** The dictionaries `process` can return. */
  datatype ResultDict =
    | SuccessDict(success: bool, payoutId: PayoutId, status: Status, completedAt: int)
    | NotFoundDict(success: bool, payoutId: PayoutId)
    | AlreadyCompletedDict(alreadyCompleted: bool)

  datatype Outcome = Returned(value: Option<ResultDict>) | Raised(exc: Exc)

  /** The store after the invocation, what it handed back, and the statuses it wrote, in order. */
  datatype Run = Run(store: Store, outcome: Outcome, writes: seq<Status>)

  /** The invocation's working copy of payout `id`, next to the store it was read from. */
  datatype Work = Work(store: Store, id: PayoutId, payout: Payout, writes: seq<Status>)

  /** A stage either lets the pipeline go on or raises. */
  datatype Step = Next(work: Work) | Stop(store: Store, writes: seq<Status>, exc: Exc) {
    function StoreAfter(): Store {
      if Next? then work.store else store
    }

    function WritesAfter(): seq<Status> {
      if Next? then work.writes else writes
    }
  }

  /** One sequential invocation: the working copy is the stored record. */
  predicate Coherent(w: Work) {
    w.id in w.store && w.store[w.id] == w.payout
  }

  /** Between `s` and `s'` only `status` and `updated_at` of record `id` may have changed. */
  predicate StatusOnlyChanged(s: Store, s': Store, id: PayoutId) {
    && s'.Keys == s.Keys
    && (forall k :: k in s && k != id ==> s'[k] == s[k])
    && (id in s ==> s'[id] == s[id].(status := s'[id].status, updatedAt := s'[id].updatedAt))
  }

  /** Between `s` and `s'` only `status`, `description` and `updated_at` of record `id` may have changed. */
  predicate LifecycleOnlyChanged(s: Store, s': Store, id: PayoutId) {
    && s'.Keys == s.Keys
    && (forall k :: k in s && k != id ==> s'[k] == s[k])
    && (id in s ==> s'[id] == s[id].(status := s'[id].status, description := s'[id].description,
                                     updatedAt := s'[id].updatedAt))
  }

  /**
    What every stage promises: it either leaves store and writes log alone or
    extends the log, it touches only status and `updated_at` of its own
    record, and going on keeps the working copy in step with the store.
  */
  predicate StageEffect(w: Work, r: Step) {
    && StatusOnlyChanged(w.store, r.StoreAfter(), w.id)
    && w.writes <= r.WritesAfter()
    && (r.WritesAfter() == w.writes ==> r.StoreAfter() == w.store)
    && (r.Next? ==> Coherent(r.work) && r.work.id == w.id)
  }

  function FaultMessage(env: Env, point: FaultPoint): Option<string> {
    if env.fault.Some? && env.fault.value.point == point then Some(env.fault.value.message) else None
  }

  /** True when a record in `processing` has not been touched for more than five minutes. */
  predicate IsStale(p: Payout, now: int) {
    p.updatedAt < now - StaleAfter
  }

  /** `save(update_fields=['status', 'updated_at'])` with the clock stamping `updated_at`. */
  function Save(w: Work, s: Status, now: int): (w': Work)
    requires Coherent(w)
    ensures Coherent(w')
    ensures StatusOnlyChanged(w.store, w'.store, w.id) && w'.id == w.id
    ensures w'.payout == w.payout.(status := s, updatedAt := now)
    ensures w'.writes == w.writes + [s]
  {
    var p := w.payout.(status := s, updatedAt := now);
    Work(w.store[w.id := p], w.id, p, w.writes + [s])
  }

  /** Stage 1: fetch the payout or raise the not-found exception. */
  function Setup(store: Store, id: PayoutId, env: Env): (r: Result<Payout, Exc>)
    ensures r.Success? ==> id in store && r.value == store[id]
    ensures r.Failure? ==> r.error.Unexpected? || (r.error == Http404 && id !in store)
    ensures FaultMessage(env, FetchFault).None? ==> (r.Success? <==> id in store)
    ensures FaultMessage(env, FetchFault).Some? ==> r == Failure(Unexpected(FaultMessage(env, FetchFault).value))
  {
    match FaultMessage(env, FetchFault)
    case Some(m) => Failure(Unexpected(m))
    case None => if id in store then Success(store[id]) else Failure(Http404)
  }

  /** Stage 2: the idempotency check. Only `completed` and `processing` are special-cased. */
  function Validate(w: Work, env: Env): (r: Step)
    requires Coherent(w)
    ensures StageEffect(w, r)
    ensures r.Next? ==> r.work.payout.status != Completed
    ensures w.payout.status == Completed ==> r == Stop(w.store, w.writes, StopProcessing(None))
    ensures w.payout.status !in {Completed, Processing} ==> r == Next(w)
  {
    if w.payout.status == Completed then Stop(w.store, w.writes, StopProcessing(None))
    else if w.payout.status == Processing then CheckStuckProcessing(w, env)
    else Next(w)
  }

  /** A stale `processing` record is reset to `pending`; a fresh one means another attempt owns it. */
  function CheckStuckProcessing(w: Work, env: Env): (r: Step)
    requires Coherent(w)
    ensures StageEffect(w, r)
    ensures r.Next? ==> r.work.payout.status == Pending && r.work.writes == w.writes + [Pending]
    ensures !IsStale(w.payout, env.now) ==> r == Stop(w.store, w.writes, ProcessingInProgress)
    ensures IsStale(w.payout, env.now) && FaultMessage(env, ResetWriteFault).Some? ==>
              r == Stop(w.store, w.writes, Unexpected(FaultMessage(env, ResetWriteFault).value))
    ensures IsStale(w.payout, env.now) && FaultMessage(env, ResetWriteFault).None? ==> r.Next?
  {
    if IsStale(w.payout, env.now) then
      match FaultMessage(env, ResetWriteFault)
      case Some(m) => Stop(w.store, w.writes, Unexpected(m))
      case None => Next(Save(w, Pending, env.now))
    else
      Stop(w.store, w.writes, ProcessingInProgress)
  }

  /** Stage 3: mark the payout as in flight. */
  function SetProcessing(w: Work, env: Env): (r: Step)
    requires Coherent(w)
    ensures StageEffect(w, r)
    ensures r.Next? ==> r.work.payout.status == Processing && r.work.writes == w.writes + [Processing]
    ensures r.Stop? <==> FaultMessage(env, ProcessingWriteFault).Some?
    ensures r.Stop? ==> r == Stop(w.store, w.writes, Unexpected(FaultMessage(env, ProcessingWriteFault).value))
  {
    match FaultMessage(env, ProcessingWriteFault)
    case Some(m) => Stop(w.store, w.writes, Unexpected(m))
    case None => Next(Save(w, Processing, env.now))
  }

  /** Stage 4: the simulated stages touch nothing; one of them may raise. */
  function SimulateProcessing(w: Work, env: Env): (r: Step)
    ensures r.Next? ==> r.work == w
    ensures r.StoreAfter() == w.store && r.WritesAfter() == w.writes
    ensures r.Stop? <==> env.fault.Some? && env.fault.value.point.StageFault? && env.fault.value.point.index < |Stages|
    ensures r.Stop? ==> r.exc == Unexpected(env.fault.value.message)
  {
    if env.fault.Some? && env.fault.value.point.StageFault? && env.fault.value.point.index < |Stages| then
      Stop(w.store, w.writes, Unexpected(env.fault.value.message))
    else
      Next(w)
  }

  /** Stage 5: mark the payout completed. */
  function Complete(w: Work, env: Env): (r: Step)
    requires Coherent(w)
    ensures StageEffect(w, r)
    ensures r.Next? ==> r.work.payout.status == Completed && r.work.writes == w.writes + [Completed]
    ensures r.Stop? <==> FaultMessage(env, CompleteWriteFault).Some?
    ensures r.Stop? ==> r == Stop(w.store, w.writes, Unexpected(FaultMessage(env, CompleteWriteFault).value))
  {
    match FaultMessage(env, CompleteWriteFault)
    case Some(m) => Stop(w.store, w.writes, Unexpected(m))
    case None => Next(Save(w, Completed, env.now))
  }

  /** Stages 2 to 5 in order; the first stage that raises stops the rest. */
  function Pipeline(w: Work, env: Env): (r: Step)
    requires Coherent(w)
    ensures StageEffect(w, r)
    ensures r.Next? ==> r.work.payout.status == Completed
    ensures w.payout.status == Completed ==> r == Stop(w.store, w.writes, StopProcessing(None))
    ensures w.payout.status == Processing && !IsStale(w.payout, env.now) ==>
              r == Stop(w.store, w.writes, ProcessingInProgress)
    ensures r.Next? ==>
              r.work.writes == w.writes + (if w.payout.status == Processing then [Pending] else []) + [Processing, Completed]
    ensures r.Next? ==> r.work.payout == w.payout.(status := Completed, updatedAt := env.now)
  {
    match Validate(w, env)
    case Stop(s, ws, e) => Stop(s, ws, e)
    case Next(w1) =>
      match SetProcessing(w1, env)
      case Stop(s, ws, e) => Stop(s, ws, e)
      case Next(w2) =>
        match SimulateProcessing(w2, env)
        case Stop(s, ws, e) => Stop(s, ws, e)
        case Next(w3) => Complete(w3, env)
  }

  function SuccessResult(w: Work): ResultDict {
    SuccessDict(true, w.id, Completed, w.payout.updatedAt)
  }

  /** `str(exc)` for the exceptions that reach the failure recorder. */
  function ErrorText(e: Exc): string {
    match e
    case Unexpected(m) => m
    case Http404 => NotFoundMessage
    case _ => ""
  }

  /** The description after a failure: the error is appended on a new line, never overwriting earlier text. */
  function AppendError(description: Option<string>, message: string): (r: string)
    ensures description.Some? && description.value != "" ==>
              |r| > |description.value| &&
              r[..|description.value|] == description.value && r[|description.value|..] == "\n" + ErrorPrefix + message
    ensures (description.None? || description.value == "") ==> r == ErrorPrefix + message
  {
    if description.Some? && description.value != "" then
      description.value + "\n" + ErrorPrefix + message
    else
      ErrorPrefix + message
  }

  /**
    The failure recorder: a fresh lookup and one atomic write of status
    `failed` and the appended description. A missing record or a raising
    transaction is swallowed.
  */
  function MarkAsFailed(store: Store, writes: seq<Status>, id: PayoutId, error: Exc, env: Env): (r: (Store, seq<Status>))
    ensures LifecycleOnlyChanged(store, r.0, id)
    ensures (id !in store || env.recordWriteFails) ==> r == (store, writes)
    ensures id in store && !env.recordWriteFails ==>
              r.1 == writes + [Failed] &&
              r.0[id] == store[id].(status := Failed,
                                    description := Some(AppendError(store[id].description, ErrorText(error))),
                                    updatedAt := env.now)
  {
    if id !in store || env.recordWriteFails then (store, writes)
    else
      var p := store[id];
      var p' := p.(status := Failed, description := Some(AppendError(p.description, ErrorText(error))), updatedAt := env.now);
      (store[id := p'], writes + [Failed])
  }

  /**
    The generic handler: the two control-flow exceptions skip the failure
    recorder; a `StopProcessing` hands back its `result` attribute, while
    `ProcessingInProgress`, which has none, is re-raised. Every other
    exception is recorded and then re-raised.
  */
  function HandleError(store: Store, writes: seq<Status>, id: PayoutId, exc: Exc, env: Env): (r: Run)
    ensures exc.StopProcessing? ==> r == Run(store, Returned(exc.result), writes)
    ensures exc == ProcessingInProgress ==> r == Run(store, Raised(exc), writes)
    ensures !exc.StopProcessing? && exc != ProcessingInProgress ==>
              r.outcome == Raised(exc) && (r.store, r.writes) == MarkAsFailed(store, writes, id, exc, env)
  {
    match exc
    case StopProcessing(result) => Run(store, Returned(result), writes)
    case ProcessingInProgress => Run(store, Raised(exc), writes)
    case _ =>
      var (s, ws) := MarkAsFailed(store, writes, id, exc, env);
      Run(s, Raised(exc), ws)
  }

  /** The `except` chain of `process`: a missing-record exception first, then the generic handler. */
  function Catch(store: Store, writes: seq<Status>, id: PayoutId, exc: Exc, env: Env): (r: Run)
    ensures exc == DoesNotExist ==> r == Run(store, Returned(Some(NotFoundDict(false, id))), writes)
    ensures exc != DoesNotExist ==> r == HandleError(store, writes, id, exc, env)
    ensures exc.Unexpected? || exc == Http404 ==> r.outcome == Raised(exc)
  {
    if exc == DoesNotExist then Run(store, Returned(Some(NotFoundDict(false, id))), writes)
    else HandleError(store, writes, id, exc, env)
  }

  /**
    One invocation of the processing service. Whatever happens, only the
    record `id` may change, and of it only `status`, `description` and
    `updated_at`; the writes log records the statuses written, in order.
  */
  function Process(store: Store, id: PayoutId, env: Env): (r: Run)
    ensures LifecycleOnlyChanged(store, r.store, id)
    ensures r.writes == [] ==> r.store == store
    ensures r.outcome.Raised? ==> !r.outcome.exc.StopProcessing? && !r.outcome.exc.DoesNotExist?
    ensures r.outcome.Returned? && r.outcome.value.Some? ==> r.outcome.value.value.SuccessDict?
  {
    match Setup(store, id, env)
    case Failure(e) => Catch(store, [], id, e, env)
    case Success(p) =>
      match Pipeline(Work(store, id, p, []), env)
      case Next(w) => Run(w.store, Returned(Some(SuccessResult(w))), w.writes)
      case Stop(s, ws, e) => Catch(s, ws, id, e, env)
  }
}

=== FILE: processing_properties.dfy ===
/**
  Properties of one and of several invocations of the processing service.
*/
module ProcessingProperties {
  import opened Wrappers
  import opened Enums
  import opened Processing

  /** The initial lookup does not raise an unexpected exception. */
  predicate FetchSucceeds(env: Env) {
    FaultMessage(env, FetchFault).None?
  }

  /** The record gets past the idempotency check: not completed, and not held by a live attempt. */
  predicate PassesValidation(p: Payout, now: int) {
    p.status != Completed && (p.status == Processing ==> IsStale(p, now))
  }

  /** The injected fault lies on the path this invocation actually takes. */
  predicate FaultReached(store: Store, id: PayoutId, env: Env) {
    env.fault.Some? &&
    match env.fault.value.point
    case FetchFault => true
    case ResetWriteFault =>
      id in store && store[id].status == Processing && IsStale(store[id], env.now)
    case StageFault(i) =>
      i < |Stages| && id in store && PassesValidation(store[id], env.now)
    case _ =>
      id in store && PassesValidation(store[id], env.now)
  }

  /**
    The five ways an invocation can end, each characterised by the input
    alone: `None` for a completed payout, the in-progress exception for a
    live `processing` record, the not-found exception for a missing id,
    the injected exception when its operation is reached, and the success
    dictionary otherwise.
  */
  lemma OutcomeClassification(store: Store, id: PayoutId, env: Env)
    ensures var r := Process(store, id, env);
      && (r.outcome == Returned(None) <==>
            FetchSucceeds(env) && id in store && store[id].status == Completed)
      && (r.outcome == Raised(ProcessingInProgress) <==>
            FetchSucceeds(env) && id in store && store[id].status == Processing && !IsStale(store[id], env.now))
      && (r.outcome == Raised(Http404) <==> FetchSucceeds(env) && id !in store)
      && (r.outcome.Raised? && r.outcome.exc.Unexpected? <==> FaultReached(store, id, env))
      && (r.outcome.Returned? && r.outcome.value.Some? <==>
            id in store && PassesValidation(store[id], env.now) && !FaultReached(store, id, env))
  {
    var r := Process(store, id, env);
    if !FetchSucceeds(env) {
      assert r.outcome == Raised(Unexpected(env.fault.value.message));
    } else if id !in store {
      MissingIdRaisesNotFound(store, id, env);
    } else if store[id].status == Completed {
      CompletedIsNoOp(store, id, env);
    } else if store[id].status == Processing && !IsStale(store[id], env.now) {
      FreshProcessingRaisesInProgress(store, id, env);
    } else if FaultReached(store, id, env) {
      FaultedRunRaises(store, id, env);
    } else {
      CleanRunSucceeds(store, id, env);
    }
  }

  /** A reached fault on a record that exists ends in the injected exception. */
  lemma FaultedRunRaises(store: Store, id: PayoutId, env: Env)
    requires id in store && FaultReached(store, id, env)
    ensures Process(store, id, env).outcome == Raised(Unexpected(env.fault.value.message))
  {
    var p := store[id];
    var w := Work(store, id, p, []);
    match env.fault.value.point
    case FetchFault =>
    case ResetWriteFault =>
      assert CheckStuckProcessing(w, env).Stop?;
    case ProcessingWriteFault =>
      assert Validate(w, env).Next?;
    case StageFault(i) =>
      assert Validate(w, env).Next?;
    case CompleteWriteFault =>
      assert Validate(w, env).Next?;
  }

  /** A record that passes validation and meets no fault completes. */
  lemma CleanRunSucceeds(store: Store, id: PayoutId, env: Env)
    requires id in store && PassesValidation(store[id], env.now) && !FaultReached(store, id, env)
    requires FetchSucceeds(env)
    ensures Process(store, id, env).outcome == Returned(Some(SuccessDict(true, id, Completed, env.now)))
  {
    var w := Work(store, id, store[id], []);
    var v := Validate(w, env);
    assert v.Next?;
    var sp := SetProcessing(v.work, env);
    assert sp.Next?;
    assert SimulateProcessing(sp.work, env).Next?;
  }

  /** A completed payout: nothing is written, the store is unchanged and `None` comes back. */
  lemma CompletedIsNoOp(store: Store, id: PayoutId, env: Env)
    requires id in store && store[id].status == Completed
    requires FetchSucceeds(env)
    ensures Process(store, id, env) == Run(store, Returned(None), [])
  {
  }

  /** Runs the service once per environment, in order, on the same id. */
  function ProcessRepeatedly(store: Store, id: PayoutId, envs: seq<Env>): (r: (Store, seq<Outcome>))
    ensures |r.1| == |envs|
  {
    if envs == [] then (store, [])
    else
      var first := Process(store, id, envs[0]);
      var rest := ProcessRepeatedly(first.store, id, envs[1..]);
      (rest.0, [first.outcome] + rest.1)
  }

  /** However many times a completed payout is redelivered, no delivery writes and each returns `None`. */
  lemma {:induction false} CompletedIsNoOpOnEveryRepeat(store: Store, id: PayoutId, envs: seq<Env>)
    requires id in store && store[id].status == Completed
    requires forall i :: 0 <= i < |envs| ==> FetchSucceeds(envs[i])
    ensures ProcessRepeatedly(store, id, envs).0 == store
    ensures forall i :: 0 <= i < |envs| ==> ProcessRepeatedly(store, id, envs).1[i] == Returned(None)
  {
    if envs != [] {
      CompletedIsNoOp(store, id, envs[0]);
      CompletedIsNoOpOnEveryRepeat(store, id, envs[1..]);
    }
  }

  /** A `processing` record touched within the last five minutes: the in-progress exception escapes and nothing is written. */
  lemma FreshProcessingRaisesInProgress(store: Store, id: PayoutId, env: Env)
    requires id in store && store[id].status == Processing
    requires store[id].updatedAt >= env.now - StaleAfter
    requires FetchSucceeds(env)
    ensures Process(store, id, env) == Run(store, Raised(ProcessingInProgress), [])
  {
  }

  /** The staleness comparison is strict: exactly five minutes old is still fresh, one microsecond more is stale. */
  lemma StalenessBoundary(p: Payout, now: int)
    ensures p.updatedAt == now - StaleAfter ==> !IsStale(p, now)
    ensures p.updatedAt == now - StaleAfter - 1 ==> IsStale(p, now)
    ensures StaleAfter == 300 * 1000000
  {
  }

  /** A stale `processing` record is reset to `pending`, then written `processing`, then `completed`. */
  lemma StaleProcessingIsRecovered(store: Store, id: PayoutId, now: int)
    requires id in store && store[id].status == Processing && IsStale(store[id], now)
    ensures var r := Process(store, id, Env(now, None, false));
      && r.writes == [Pending, Processing, Completed]
      && r.store[id] == store[id].(status := Completed, updatedAt := now)
      && r.outcome == Returned(Some(SuccessDict(true, id, Completed, now)))
  {
  }

  /** `pending`, `failed` and `cancelled` are all driven on to `completed` by a fault-free run. */
  lemma UnguardedStatusesComplete(store: Store, id: PayoutId, now: int)
    requires id in store && store[id].status in {Pending, Failed, Cancelled}
    ensures var r := Process(store, id, Env(now, None, false));
      && r.writes == [Processing, Completed]
      && r.store[id] == store[id].(status := Completed, updatedAt := now)
      && r.outcome == Returned(Some(SuccessDict(true, id, Completed, now)))
  {
  }

  /** Whenever a result dictionary comes back, it reports success, and only status and `updated_at` were written. */
  lemma SuccessWritesOnlyStatusAndClock(store: Store, id: PayoutId, env: Env)
    requires Process(store, id, env).outcome.Returned?
    requires Process(store, id, env).outcome.value.Some?
    ensures id in store
    ensures var r := Process(store, id, env);
      && r.outcome.value.value == SuccessDict(true, id, Completed, env.now)
      && r.store[id] == store[id].(status := Completed, updatedAt := env.now)
      && r.store[id].amountCents == store[id].amountCents
      && r.store[id].currency == store[id].currency
      && r.store[id].recipientDetails == store[id].recipientDetails
      && r.store[id].description == store[id].description
  {
  }

  /**
    An unexpected exception on an existing record: the record ends `failed`,
    the message is appended to the description, nothing else changes, and
    the same exception is raised again.
  */
  lemma UnexpectedErrorIsRecorded(store: Store, id: PayoutId, env: Env)
    requires id in store && FaultReached(store, id, env) && !env.recordWriteFails
    ensures var r := Process(store, id, env);
      && r.outcome == Raised(Unexpected(env.fault.value.message))
      && r.writes[|r.writes| - 1] == Failed
      && r.store[id] == store[id].(status := Failed,
                                  description := Some(AppendError(store[id].description, env.fault.value.message)),
                                  updatedAt := env.now)
  {
    FaultedRunRaises(store, id, env);
    var msg := env.fault.value.message;
    if env.fault.value.point != FetchFault {
      var st := Pipeline(Work(store, id, store[id], []), env);
      assert st.Stop? && st.exc == Unexpected(msg);
      assert st.store[id].description == store[id].description;
      assert Process(store, id, env) == HandleError(st.store, st.writes, id, Unexpected(msg), env);
    }
  }

  /** The failure note keeps earlier description text and starts a new line; an empty or missing description is replaced. */
  lemma FailureNoteAppends(description: string, message: string)
    ensures description != "" ==>
              AppendError(Some(description), message) == description + "\n" + ErrorPrefix + message
    ensures AppendError(Some(""), message) == ErrorPrefix + message
    ensures AppendError(None, message) == ErrorPrefix + message
  {
  }

  /**
    When the failure-recording write raises too, that second exception is
    swallowed: the original exception still escapes and the description
    is untouched.
  */
  lemma RecordingFailureIsSwallowed(store: Store, id: PayoutId, env: Env)
    requires id in store && FaultReached(store, id, env) && env.recordWriteFails
    ensures var r := Process(store, id, env);
      && r.outcome == Raised(Unexpected(env.fault.value.message))
      && Failed !in r.writes
      && r.store[id].description == store[id].description
  {
    FaultedRunRaises(store, id, env);
  }

  /**
    A missing id surfaces the not-found exception of the fetch, not the
    not-found result: the recorder's own lookup fails and is swallowed,
    and the store is unchanged.
  */
  lemma MissingIdRaisesNotFound(store: Store, id: PayoutId, env: Env)
    requires id !in store && FetchSucceeds(env)
    ensures Process(store, id, env) == Run(store, Raised(Http404), [])
  {
  }

  /**
    A fresh `pending` payout created at `t0` and processed at a later `now`
    completes with `updated_at == now > t0`; a second delivery finds it
    completed, returns `None` and leaves `updated_at` as it was.
  */
  lemma DeliveredTwice(store: Store, id: PayoutId, t0: int, now: int, later: Env)
    requires id in store && store[id].status == Pending && store[id].createdAt == t0 && t0 < now
    requires FetchSucceeds(later)
    ensures var first := Process(store, id, Env(now, None, false));
      && first.store[id].status == Completed
      && first.store[id].updatedAt == now > t0
      && Process(first.store, id, later) == Run(first.store, Returned(None), [])
  {
    UnguardedStatusesComplete(store, id, now);
    var first := Process(store, id, Env(now, None, false));
    CompletedIsNoOp(first.store, id, later);
  }
}

=== FILE: wrappers.dfy ===
/** Failure-compatible wrappers used across the model. */
module Wrappers {

  /** A value that may be absent, as Python's `None`. */
  datatype Option<+T> = None | Some(value: T)

  /** Either a validated value or the reason it was refused. */
  datatype Result<+R, +E> = Success(value: R) | Failure(error: E) {
    predicate IsFailure() {
      Failure?
    }

    function PropagateFailure<U>(): Result<U, E>
      requires Failure?
    {
      Failure(error)
    }

    function Extract(): R
      requires Success?
    {
      value
    }
  }
}
